=== FILE: README.md ===
# AI Interview Assistant — a Dafny model of the interview core

This project models the core of a Streamlit interview-practice application.
A candidate picks a role, an experience level and an interview type. A language
model asks a question. The candidate answers, and the model replies with an
assessment and a follow-up question. The application keeps the transcript, a
history of turns and running role metrics in the per-browser session state.

The model covers:

- **ScoreExtraction**: reading up to seven named sub-scores out of the free text
  of an assessment. First it tries a labelled pass with an ordered list of
  patterns per category. If that finds nothing, a positional fallback assigns
  the in-range numbers in order of appearance.
- **MetricsCalculator**: folding every assessment of the transcript into the
  four role metrics: domain knowledge, methodology understanding, practical
  experience and the weighted overall score.
- **AiService**: the retry decorator with its quota and invalid-key
  short-circuits and doubling back-off, `generate_content` with its empty-reply
  error, and the splitting of the model's question and evaluation replies.
- **InterviewAnalyzer**: the experience-bounded scoring of one answer. It
  covers the role criteria, the experience expectations, the threshold
  adjustment, the weighting and the clamp to `[base - 2, base + 1.5]`.
- **SessionManager**: every session-state operation. That is initialisation
  with defaults, the one-second rate limit, reset, appends, the stats update,
  input validation, the last-question lookup and the duplicate-submission guard.
- **InterviewController**: the focus line, starting an interview, one answer
  turn with its fallback scoring and its `finally` clean-up, and the
  duplicate-input guard in front of it.
- **Helpers**: metric averaging, duration formatting and parsing, text
  truncation, progress towards a target and the trend arrow.

`Text` holds the Python string operations these need: `strip`,
`split(sep, 1)`, `split()`, `replace(…, 1)`, ASCII `lower` and `in`.
`Transcript` holds the message record, and `Results` holds `Option`/`Result`.

Everything the code does not decide itself is a parameter:

- The regular-expression engine is a `Scan`. It gives the first capture of each
  pattern and the list of numeric tokens.
- The language model is a function from the attempt number to a reply or an
  exception message.
- The clock reading and the history timestamp are values passed in.
- The validator the controller calls is the predicate `isValid`.

All arithmetic is on unbounded integers and exact reals.

## Model

| member | source | states |
|---|---|---|
| ScoreExtraction.FirstAcceptedFrom | src/utils/metrics_calculator.py:49-55 | the index found is the first pattern at or after the start whose first match is in [1,10]; none means no such pattern |
| ScoreExtraction.LabelledScore | src/utils/metrics_calculator.py:48-55 | a category gets a value exactly when one of its patterns yields an in-range value, and the value is that of the first such pattern |
| ScoreExtraction.InRangeNumbers | src/utils/metrics_calculator.py:60-61 | the kept tokens are exactly the tokens in [1,10], none added and none lost; no tokens give none, and a single token is kept exactly when it is in range |
| ScoreExtraction.InRangeNumbersKeepsAll | src/utils/metrics_calculator.py:60-61 | when every token is in range the filter returns them all, repeats included, in order |
| ScoreExtraction.InRangeNumbersAppend | src/utils/metrics_calculator.py:61 | filtering distributes over concatenation, so it keeps the order of appearance |
| ScoreExtraction.ExtractWith | src/utils/metrics_calculator.py:47-78 | every kept value is in [1,10]; if any category is found the result is exactly the labelled pass (first accepted pattern wins, unfound categories absent); otherwise it is the positional fallback over the in-range tokens |
| ScoreExtraction.FoundIsLabelled | src/utils/metrics_calculator.py:48-58 | the labelled pass is empty exactly when no category has an accepted pattern, and it holds each found category at its winning value |
| ScoreExtraction.FallbackShape | src/utils/metrics_calculator.py:63-76 | the fallback fills the six non-experience categories in order, one per in-range token, at most six keys, never experience match |
| ScoreExtraction.ExactLabelWins | src/utils/metrics_calculator.py:49-55 | an in-range value captured by a category's first pattern is the one extracted, whatever the looser patterns capture |
| ScoreExtraction.OutOfRangeFallsThrough | src/utils/metrics_calculator.py:52-55 | an out-of-range first match is skipped and the next accepted pattern supplies the value |
| ScoreExtraction.NothingFoundFallsBack | src/utils/metrics_calculator.py:58-76 | with no category found, the result is exactly the positional fallback |
| ScoreExtraction.ThreeUnlabelledNumbers | src/utils/metrics_calculator.py:58-70 | a text with no label and three in-range numbers gives knowledge depth, implementation and best practices those numbers in order, and nothing else |
| MetricsCalculator.MeanInScoreRange | src/utils/metrics_calculator.py:150-153 | the mean of scores in [1,10] is in [1,10] |
| MetricsCalculator.Present | src/utils/metrics_calculator.py:118-139 | the values a score set holds for a group are empty exactly when none of the group's categories is present, and stay in range |
| MetricsCalculator.AssessmentSamples | src/utils/metrics_calculator.py:112-139 | one assessment contributes nothing exactly when nothing was extracted from it, and what it contributes is in range |
| MetricsCalculator.Added | src/utils/metrics_calculator.py:104-110 | a message contributes samples exactly when it is an assistant assessment from which some sub-score was extracted |
| MetricsCalculator.CollectEmptyIff | src/utils/metrics_calculator.py:104-148 | the collected samples are empty exactly when no assessment yields a sub-score |
| MetricsCalculator.CalculateRoleSpecificMetrics | src/utils/metrics_calculator.py:80-166 | all four metrics are zero exactly when no assessment yields a sub-score; otherwise each group metric is the average of the per-assessment group means (6.0 for a group without samples), each is in [1,10], and the overall score is the 0.5/0.3/0.2 weighting, lying between the smallest and largest component |
| MetricsCalculator.CollectOnlyAssessments | src/utils/metrics_calculator.py:104-110 | dropping every message that is not an assistant assessment leaves the collected samples unchanged |
| MetricsCalculator.OnlyAssessmentsCount | src/utils/metrics_calculator.py:104-110 | questions, user answers and other messages never influence the metrics |
| MetricsCalculator.SameAssessmentsSameMetrics | src/utils/metrics_calculator.py:104-166 | two transcripts with the same assessments in the same order give the same metrics |
| MetricsCalculator.UnparseableAssessmentGivesZeros | src/utils/metrics_calculator.py:141-148 | an assessment from which nothing can be extracted yields all zeros, not the 6.0 fallback |
| MetricsCalculator.MissingGroupFallsBack | src/utils/metrics_calculator.py:150-153 | each of the three groups without samples averages 6.0 once any group has one |
| MetricsCalculator.CollectAppend | src/utils/metrics_calculator.py:104-139 | collecting over two transcripts in sequence joins the samples of each, group by group |
| MetricsCalculator.SumAppend | src/utils/metrics_calculator.py:150-153 | the sum of a concatenation is the sum of the sums |
| MetricsCalculator.MeanAppend | src/utils/metrics_calculator.py:150-153 | the mean of a concatenation weighs each part by its length |
| MetricsCalculator.TwoAssessmentsDomain | src/utils/metrics_calculator.py:112-153 | for two assessments with technical sub-scores, domain knowledge is the mean of their two per-assessment means, not the mean of all sub-scores pooled |
| MetricsCalculator.OneAssessmentDomain | src/utils/metrics_calculator.py:118-122 | for a single assessment, domain knowledge is the mean of its technical sub-scores |
| AiService.RetryOnError | src/services/ai_service.py:13-47 | no attempt and `None` when max_retries <= 0; otherwise 1 to max_retries attempts; no sleep before the first, delay·2^(k-1) before attempt k; every attempt but the last failed retryably; the last attempt's value is returned, a quota or invalid-key error raises its fixed message at once, and any other error is re-raised only when the attempts are exhausted |
| AiService.QuotaStopsAtOnce | src/services/ai_service.py:31-33 | a quota error on the first attempt raises the quota message after one attempt and no sleep, even when the message also mentions "invalid" |
| AiService.InvalidKeyStopsAtOnce | src/services/ai_service.py:34-36 | an invalid-key error without "quota" raises the key message after one attempt |
| AiService.ExhaustedReraisesLast | src/services/ai_service.py:38-43 | when every attempt fails retryably, all attempts are used and the last error is raised |
| AiService.GenerateContent | src/services/ai_service.py:68-96 | one to three attempts sleeping 2 then 4 seconds; the call never falls through to `None`; a returned text is the non-empty reply of the last attempt; every earlier attempt gave an empty reply or a retryable error; the last attempt ends the call with its text, the quota or key message, or, only on the third attempt, its own error |
| AiService.EmptyReplyGetsAnotherAttempt | src/services/ai_service.py:88-89 | an empty reply on the first or second attempt is always followed by another attempt |
| AiService.AllEmptyRaises | src/services/ai_service.py:68-96 | three empty replies use all three attempts, sleep 2 then 4 seconds and raise the empty-reply error |
| AiService.GenerateShape | src/services/ai_service.py:68-96 | the retry wrapper's contract with three attempts and a two-second delay fixes the sleeps, the returned reply and the replies of the earlier attempts |
| AiService.FirstReplyReturned | src/services/ai_service.py:86-91 | a non-empty first reply ends the call at once with that text |
| AiService.EmptyReplyIsRetried | src/services/ai_service.py:88-89 | the empty-reply error is neither a quota nor an invalid-key error, so it is retried |
| AiService.ParseQuestionReply | src/services/ai_service.py:133-141 | without the expected-answer marker the whole reply (first "Question:" removed, stripped) is the question with the placeholder answer; with it, the question precedes the marker's first occurrence and the answer follows it; both are stripped |
| AiService.ParseFollowUp | src/services/ai_service.py:200-202 | the follow-up part splits at the first expected-answer marker, or keeps the placeholder answer without one |
| AiService.ParseEvaluationReply | src/services/ai_service.py:195-208 | the assessment never contains the follow-up marker; without the marker the whole stripped reply is the assessment with both placeholders; with it, the assessment precedes the first occurrence and the rest is split by ParseFollowUp |
| AiService.PlaceholderHasNoAnswer | src/services/ai_service.py:198-202 | the follow-up placeholder splits into itself and the follow-up answer placeholder |
| InterviewAnalyzer.RoleCriteria | src/utils/interview_analyzer.py:42-85 | every role, including one without an entry, has three criteria weighted 0.4, 0.3, 0.3 |
| InterviewAnalyzer.RoleWeightsSumToOne | src/utils/interview_analyzer.py:128-144 | the criteria weights of every role sum to 1 |
| InterviewAnalyzer.Expectations | src/utils/interview_analyzer.py:88-125 | base score in [6, 8.5] and threshold in [0.7, 0.85]; every level other than the three senior ones gets the "0-2 years" entry |
| InterviewAnalyzer.ExpectationsIncrease | src/utils/interview_analyzer.py:88-125 | base score and threshold rise strictly with the experience level |
| InterviewAnalyzer.PerformanceWeightsSumToOne | src/utils/interview_analyzer.py:8-12 | content, technical and alignment weights sum to 1 |
| InterviewAnalyzer.Adjusted | src/utils/interview_analyzer.py:200-205 | never below base - 2; a raw score at or above the base is kept; one below it becomes max(raw·threshold, base - 2), which stays below the base |
| InterviewAnalyzer.AdjustedMonotone | src/utils/interview_analyzer.py:200-205 | the adjustment preserves the order of raw content scores |
| InterviewAnalyzer.Bound | src/utils/interview_analyzer.py:228-229 | the result is in [lo, hi]; a value inside is kept and one outside goes to the nearer end |
| InterviewAnalyzer.AnalyzeResponse | src/utils/interview_analyzer.py:188-269 | the score always lies in [base - 2, base + 1.5]; on success it is (0.5·adjusted content + 0.3·technical + 0.2·alignment)·threshold clamped to those bounds, and the model's sub-scores pass through unchanged; on the error path every numeric field is base - 2 and expectations are not met |
| InterviewAnalyzer.UniformScore | src/utils/interview_analyzer.py:194-229 | an answer rated v on every sub-score, with v at or above the base, scores v·threshold clamped to the bounds, because the weights sum to one |
| InterviewAnalyzer.ErrorScoreIsLowest | src/utils/interview_analyzer.py:228-269 | the error path's score is the lowest score any successful analysis can give |
| InterviewAnalyzer.ScoreMonotone | src/utils/interview_analyzer.py:194-229 | better sub-scores never lower the final score |
| SessionManager.Initialize | src/services/session_manager.py:18-38 | every key ends up present; keys already present are never overwritten; an empty store gets exactly the defaults, the clock reading included |
| SessionManager.InitializeIdempotent | src/services/session_manager.py:36-38 | initialising again, at any later time, changes nothing |
| SessionManager.Loaded | src/services/session_manager.py:36-38 | a fully initialised store round-trips through the session record |
| SessionManager.CheckRateLimit | src/services/session_manager.py:40-50 | refused exactly when less than one second has passed; a refusal reports the positive wait that closes the gap and changes nothing; an acceptance records the time, counts the request and changes nothing else |
| SessionManager.AcceptedRequestsAreSpaced | src/services/session_manager.py:40-50 | two consecutive accepted requests are at least one second apart |
| SessionManager.WaitingSuffices | src/services/session_manager.py:45-46 | retrying after the reported wait is accepted |
| SessionManager.ResetInterview | src/services/session_manager.py:52-63 | transcript, stats and flags return to their defaults while history and rate-limit bookkeeping survive |
| SessionManager.ResetIdempotent | src/services/session_manager.py:52-63 | resetting twice is resetting once |
| SessionManager.AddMessage | src/services/session_manager.py:65-72 | the message is appended at the end, earlier messages are kept, and nothing else changes |
| SessionManager.AddInterviewHistory | src/services/session_manager.py:74-86 | the entry is appended at the end of the history and nothing else changes |
| SessionManager.UpdateSessionStats | src/services/session_manager.py:88-91 | the question count goes up by one, the role metrics are replaced, the other stats and the rest of the session are untouched |
| SessionManager.SetProcessingState | src/services/session_manager.py:112-115 | only the processing flag and current response change |
| SessionManager.StartInterview | src/services/session_manager.py:117-119 | only the started flag changes, to true |
| SessionManager.ValidateUserInput | src/services/session_manager.py:102-110 | valid exactly when the input is non-empty and its stripped form has at least 10 characters; a rejection carries the invalid-input message |
| SessionManager.BlankInputRejected | src/services/session_manager.py:107-108 | whitespace alone, however long, is rejected |
| SessionManager.TrimmedInputValidIffLong | src/services/session_manager.py:102-110 | an input without surrounding whitespace is valid exactly when it has at least 10 characters |
| SessionManager.ValidationExamples | tests/test_session_manager.py:48-55 | "short" and "" are rejected with the invalid-input message |
| SessionManager.GetLastQuestion | src/services/session_manager.py:121-126 | the content of the most recent assistant question, or the "Unknown Question" card when there is none |
| SessionManager.LastQuestionAfterAdd | src/services/session_manager.py:121-126 | appending a message changes the last question only when the message is a question |
| SessionManager.ProcessingInputNotReprocessed | src/services/session_manager.py:128-132 | once processing has begun for an input, that input is not processed again |
| InterviewController.GetFocusPoints | src/controllers/interview_controller.py:24-27 | an unknown interview type gives ", "; a known one gives its primary and secondary focus joined by ", ", blank when missing |
| InterviewController.FocusPointsSplitBack | src/controllers/interview_controller.py:24-27 | when the primary focus has no ", " the focus line splits back into primary and secondary |
| InterviewController.FallbackBase | src/controllers/interview_controller.py:118-119 | the progressive base score is 6.5, 7.0, 7.5, 8.0 for zero to three recorded questions and the cap 8.5 from the fourth on |
| InterviewController.FallbackBaseMonotone | src/controllers/interview_controller.py:118-119 | the base score never decreases as questions accumulate |
| InterviewController.FallbackMetrics | src/controllers/interview_controller.py:121-126 | domain and overall are the base, methodology is base - 0.2, practical is base - 0.1, never all zero |
| InterviewController.ChooseMetrics | src/controllers/interview_controller.py:116-127 | computed metrics are replaced by the fallback exactly when they are all zero, so the chosen metrics are never all zero |
| InterviewController.FallbackIffNothingParsed | src/controllers/interview_controller.py:111-127 | the fallback is used exactly when no assessment in the transcript yields a sub-score |
| InterviewController.ChosenOverallInRange | src/controllers/interview_controller.py:111-129 | the overall score stored after a turn is always in [1, 10] |
| InterviewController.StartInterviewTurn | src/controllers/interview_controller.py:29-51 | on success one question card is appended and the interview is marked started, nothing else; when generation raises, the session is unchanged |
| InterviewController.StartedQuestionIsLast | src/controllers/interview_controller.py:40-46 | after a successful start the generated question is the last question |
| InterviewController.Finish | src/controllers/interview_controller.py:139-141 | every exit clears the processing state and changes nothing else |
| InterviewController.RecordTurn | src/controllers/interview_controller.py:85-129 | the assessment then the follow-up card are appended, one history entry, one more question counted, metrics computed over the new transcript with the fallback applied |
| InterviewController.Evaluated | src/controllers/interview_controller.py:76-141 | the turn succeeds exactly when the last question is a card and the evaluation returned; a success appends the two messages and the history entry, counts one question and stores the metrics of the new transcript with the fallback applied; a failure only clears the processing state |
| InterviewController.Answered | src/controllers/interview_controller.py:64-73 | the answer is appended, the request counted and timed, and the last question is unchanged |
| InterviewController.ProcessUserResponse | src/controllers/interview_controller.py:53-141 | the processing state is always cleared; invalid or rate-limited input changes nothing else; otherwise the answer is recorded and the evaluation decides the rest |
| InterviewController.TurnSucceedsIff | src/controllers/interview_controller.py:53-141 | success exactly when validation, the rate limit, the last-question lookup and the model call all pass |
| InterviewController.SuccessfulTurnShape | src/controllers/interview_controller.py:70-129 | a successful turn appends answer, assessment and follow-up in that order, adds one history entry with the previous question, counts one question and one request, and stores the metrics of the new transcript with the fallback applied |
| InterviewController.SuccessfulTurnStoresMetrics | src/controllers/interview_controller.py:111-129 | after a successful turn the stored role metrics are present, never all zeros, and their overall score is in [1, 10] |
| InterviewController.FailedTurnShape | src/controllers/interview_controller.py:56-141 | a failed turn leaves history and stats alone and adds at most the answer to the transcript |
| InterviewController.FollowUpBecomesLastQuestion | src/controllers/interview_controller.py:93-102 | after a successful turn the follow-up card is the question the next answer is evaluated against |
| InterviewController.HandleUserInput | src/controllers/interview_controller.py:143-157 | an empty, duplicate or concurrent submission is ignored with the session unchanged; any other is processed |
| InterviewController.ResubmissionIgnored | src/controllers/interview_controller.py:143-147 | submitting the answer being processed again is ignored |
| Helpers.CalculateAverageMetrics | src/utils/helpers.py:8-17 | an empty list gives an empty map; the keys are those of the first map; each value is the mean over the maps that have the key |
| Helpers.AverageOfCopies | src/utils/helpers.py:8-17 | averaging copies of one map gives that map back |
| Helpers.AverageInScoreRange | src/utils/helpers.py:8-17 | averages of scores in [1,10] stay in [1,10] |
| Helpers.ParseNatToString | src/utils/helpers.py:64-68 | `int(str(n)) == n` for every non-negative n |
| Helpers.DurationFields | src/utils/helpers.py:19-27 | from one day on: at least one day, then hours below 24 bracketing the remainder; below a day with at least an hour in the day's remainder: hours in [1,23] and minutes below 60 bracketing it to the minute; otherwise minutes and seconds below 60 that add up to it exactly |
| Helpers.DurationShapeUnique | src/utils/helpers.py:19-27 | the fields fit for a duration are unique, so the day, hour, minute and second fields are recovered from the seconds alone |
| Helpers.FormatDuration | src/utils/helpers.py:19-27 | the last unit letter is h from one day on, m from one hour on, s below an hour |
| Helpers.NegativeShowsRemainder | src/utils/helpers.py:19-27 | a negative duration is formatted as its remainder within a day |
| Helpers.ParseDurationString | src/utils/helpers.py:57-70 | "" parses to 0; the parse fails exactly when a token with an h, m or s suffix has no integer in front |
| Helpers.PartSecondsCases | src/utils/helpers.py:62-68 | a token without an h, m or s suffix adds 0; a suffixed token parses exactly when its prefix is an integer literal |
| Helpers.TokenValue | src/utils/helpers.py:63-68 | an integer n followed by h, m or s is worth 3600·n, 60·n or n seconds |
| Helpers.FieldWorth | src/utils/helpers.py:62-68 | a formatted field is worth 3600·n with h, 60·n with m, n with s and 0 with d |
| Helpers.TotalOk | src/utils/helpers.py:62-70 | summing token values succeeds exactly when every token parses |
| Helpers.TotalAppend | src/utils/helpers.py:62-70 | the sum over two token lists is the sum of the two sums |
| Helpers.SumPartsAppend | src/utils/helpers.py:62-70 | concatenating two token lists that parse adds their values |
| Helpers.ParseConcat | src/utils/helpers.py:57-70 | two parsable strings joined by a blank parse to the sum of their values |
| Helpers.BadNumberFails | src/utils/helpers.py:63-68 | one malformed number before a unit makes the whole parse fail |
| Helpers.FormatParseUnderHour | src/utils/helpers.py:19-70 | below an hour, parsing the formatted duration gives the seconds back |
| Helpers.FormatParseUnderDay | src/utils/helpers.py:19-70 | from an hour to a day, the round trip gives the seconds rounded down to whole minutes |
| Helpers.FormatParseDropsDays | src/utils/helpers.py:19-70 | from a day on, the day field is ignored by the parser and only the hours of the remainder survive |
| Helpers.TruncateText | src/utils/helpers.py:49-55 | text within the limit is kept; longer text is cut at the last blank of its first max_length characters, or at the limit when that part has none, and gets "..." |
| Helpers.NoBlankCutAtLimit | src/utils/helpers.py:49-55 | text without blanks is cut exactly at the limit |
| Helpers.CalculateProgress | src/utils/helpers.py:40-47 | percentage at most 100; remaining is the shortfall, never negative; completed exactly when the ratio reaches 1; a zero target gives 0% in progress |
| Helpers.FullIffCompleted | src/utils/helpers.py:40-47 | the percentage is exactly 100 when and only when the status is completed |
| Helpers.CompletedIffReached | src/utils/helpers.py:40-47 | with a positive target, completed exactly when the current value reaches it |
| Helpers.GetTrendIndicator | src/utils/helpers.py:72-78 | up exactly when current exceeds previous, down exactly when below, flat exactly when equal |
| Helpers.TrendReverses | src/utils/helpers.py:72-78 | swapping the two values swaps up and down and keeps flat |
| Text.SplitOnce | src/services/ai_service.py:134 | `s.split(sep, 1)`: no separator gives one part; otherwise the parts around the first occurrence, and they rejoin to the input |
| Text.ReplaceFirst | src/services/ai_service.py:135 | `replace(pat, rep, 1)` replaces only the first occurrence, or nothing |
| Text.Strip | src/services/ai_service.py:135-136 | the result has no surrounding whitespace and is the input with leading and trailing whitespace removed |
| Text.StripNotContains | src/services/ai_service.py:197 | stripping cannot create an occurrence of a pattern |
| Text.Words | src/utils/helpers.py:61 | `split()` yields non-empty whitespace-free words; whitespace alone gives no word; text starting with a non-blank starts with its longest whitespace-free prefix |
| Text.BlankPrefixSkipped | src/utils/helpers.py:61 | any amount of leading whitespace does not change the words |
| Text.WordsOfWordThen | src/utils/helpers.py:61 | a word followed by whitespace or the end of the text is the first word, followed by the words of the rest |
| Text.WordsJoin | src/utils/helpers.py:61 | the words of two texts joined by a blank are the words of the first followed by those of the second |
| Text.ToLowerJoin | src/utils/helpers.py:60 | lower-casing distributes over joining with a blank |
| Text.WordsOfTwo | src/utils/helpers.py:61 | two words joined by a blank split back into those two words |

## Left out

- Rounding to one decimal place. In `calculate_role_specific_metrics` and `analyze_response`, all scores are modelled before `round(…, 1)` and exact rather than floating point.
- The regular-expression engine. `Scan` supplies the first capture of each pattern and the numeric tokens. The pattern literals are kept verbatim in `ScoreExtraction.Patterns`, but what they match is not modelled.
- Floating-point parsing of captures (`float(match.group(1))`). The captured value arrives as a real.
- The language-model SDK, prompt construction, `genai.configure` and the model JSON reply of the analyzer. The reply arrives already decoded as `Feedback`, or as `None` when the call, the decoding or a field lookup raised.
- The speech path of the analyzer (`interview_analyzer.py:33-40`) and the role criteria's descriptive fields (`key_aspects`, prompt text). These are text for prompts only.
- `time.sleep`. The delays are recorded in the trace instead of being slept.
- Logging, `st.error`, `st.warning`, `st.spinner` and `st.rerun`, which are presentation only.
- The timestamps of history entries and the clock. Both are parameters.
- `SessionManager.ValidateUserInput`: the error text of `ERROR_MESSAGES['invalid_input']` is a placeholder. The configuration module does not define the table, so the model returns the key.
- `InterviewController.GetFocusPoints`: `INTERVIEW_FOCUS` is a parameter, because the configuration module does not define it either.
- `InterviewController.ProcessUserResponse`: `analyzer.validate_input` is not defined by the analyzer, so the check the controller calls is an abstract predicate.
- The `role`, `experience`, `interview_type` and `difficulty` arguments reach only the prompts or are unused.
- `export_history`, `safe_json_loads` and `format_timestamp`. They are thin wrappers over JSON serialisation and `strftime`.
- The database layer and the UI components, which are outside the interview core.
- `Helpers.CalculateAverageMetrics`: the `else 0` branch of the average cannot be reached, because every key comes from the first map, so the key always has a value.
- `Helpers.ParseInt`: only ASCII digits with an optional sign are accepted. Python's `int()` also takes surrounding whitespace, underscores between digits and non-ASCII decimal digits. The error message puts the raw token between single quotes. Python inserts the token's `repr` cut to 200 characters (`%.200R`), so its text differs for a token holding a quote, a backslash or a non-printable character, or longer than 200 characters; nothing in the core reads this text.
- `Text.ToLower`: only ASCII letters are lower-cased. Python's `str.lower` also folds non-ASCII letters.
- `SessionManager.ValidationExamples`: the valid example of the unit tests (`test_session_manager.py:32-34`) is not stated as a literal. `SessionManager.TrimmedInputValidIffLong` covers it for every input without surrounding whitespace.
- Messages whose content is a question card reach the score extractor as the empty text. In the code they are never assessments, so no score comes from them.
- The metrics are all zeros when assessments exist but none yields a sub-score (`metrics_calculator.py:141-148`); the 6.0 group fallback applies only once some group has a sample.
- `Helpers.DurationFields`: `timedelta(seconds=…)` raises `OverflowError` when the day count falls outside [-999999999, 999999999]. The model gives fields for every integer instead.
- `Helpers.FormatDuration`: for the same reason, the source raises `OverflowError` outside that day range where the model returns a string.
- `AiService.RetryOnError`: the delay is a non-negative number of seconds (the only caller passes 2). The `ValueError` that `time.sleep` raises for a negative delay is not modelled.

=== FILE: ai_service.dfy ===
/**
 The language-model call policy and the splitting of its replies.

 The model itself is an oracle: attempt `k` (counted from 0) of a wrapped call
 either returns a value or raises an error with some message. `time.sleep` is
 not performed; the delays it would sleep are recorded instead.
 */
module AiService {
  import opened Results
  import opened Text

  /* ---------------------------------------------------------------- retry */

  /** What one attempt of the wrapped call does. */
  datatype Outcome = Success(text: string) | Failure(message: string)

  /** What the decorated call does in the end: return a value, raise, or fall out of the loop with `None`. */
  datatype CallResult = Returned(text: string) | Raised(message: string) | ReturnedNone

  /** The result together with how many attempts were made and the sleeps taken between them. */
  datatype Trace = Trace(result: CallResult, attempts: nat, delays: seq<int>)

  const QuotaMessage := "API quota exceeded. Please try again later."
  const InvalidKeyMessage := "Invalid API key. Please check your configuration."

  predicate IsQuotaError(message: string) {
    Contains(ToLower(message), "quota")
  }

  predicate IsInvalidKeyError(message: string) {
    Contains(ToLower(message), "invalid")
  }

  /** A failure the wrapper retries rather than short-circuits. */
  predicate Retryable(o: Outcome) {
    o.Failure? && !IsQuotaError(o.message) && !IsInvalidKeyError(o.message)
  }

  function Pow2(k: nat): (r: nat)
    ensures r >= 1
  {
    if k == 0 then 1 else 2 * Pow2(k - 1)
  }

  /** How the attempt that ended the loop determines the result. */
  predicate EndsWith(last: Outcome, exhausted: bool, result: CallResult) {
    match last
    case Success(v) => result == Returned(v)
    case Failure(m) =>
      if IsQuotaError(m) then result == Raised(QuotaMessage)
      else if IsInvalidKeyError(m) then result == Raised(InvalidKeyMessage)
      else exhausted && result == Raised(m)
  }

  /** The retry loop entered with `retries` retryable failures behind it. */
  function RetryLoop(maxRetries: int, delay: nat, call: nat -> Outcome, retries: nat): (t: Trace)
    ensures retries >= maxRetries ==> t == Trace(ReturnedNone, 0, [])
    ensures retries < maxRetries ==> 1 <= t.attempts <= maxRetries - retries
    ensures |t.delays| == if retries == 0 && t.attempts > 0 then t.attempts - 1 else t.attempts
    ensures forall k | 0 <= k < |t.delays| ::
      t.delays[k] == delay * Pow2(if retries == 0 then k else retries - 1 + k)
    ensures forall k | retries <= k < retries + t.attempts - 1 :: Retryable(call(k))
    ensures t.attempts > 0 ==>
      EndsWith(call(retries + t.attempts - 1), retries + t.attempts == maxRetries, t.result)
    decreases maxRetries - retries
  {
    if retries >= maxRetries then Trace(ReturnedNone, 0, [])
    else
      var slept := if retries > 0 then [delay * Pow2(retries - 1)] else [];
      match call(retries)
      case Success(v) => Trace(Returned(v), 1, slept)
      case Failure(m) =>
        if IsQuotaError(m) then Trace(Raised(QuotaMessage), 1, slept)
        else if IsInvalidKeyError(m) then Trace(Raised(InvalidKeyMessage), 1, slept)
        else if retries + 1 == maxRetries then Trace(Raised(m), 1, slept)
        else
          var rest := RetryLoop(maxRetries, delay, call, retries + 1);
          Trace(rest.result, rest.attempts + 1, slept + rest.delays)
  }

  /** `retry_on_error(max_retries, delay)` applied to a call whose attempts behave as `call`. */
  function RetryOnError(maxRetries: int, delay: nat, call: nat -> Outcome): (t: Trace)
    // with no attempts allowed the call is never made and the wrapper returns None
    ensures maxRetries <= 0 ==> t == Trace(ReturnedNone, 0, [])
    // otherwise at least one and at most maxRetries attempts
    ensures maxRetries > 0 ==> 1 <= t.attempts <= maxRetries && t.result != ReturnedNone
    // no sleep before the first attempt; delay * 2^(k-1) before attempt k
    ensures t.attempts > 0 ==> |t.delays| == t.attempts - 1
    ensures forall k | 0 <= k < |t.delays| :: t.delays[k] == delay * Pow2(k)
    // every attempt but the last failed with a retryable error
    ensures forall k | 0 <= k < t.attempts - 1 :: Retryable(call(k))
    // the last attempt decides: its value, the quota or key message, or its own error once exhausted
    ensures t.attempts > 0 ==> EndsWith(call(t.attempts - 1), t.attempts == maxRetries, t.result)
  {
    RetryLoop(maxRetries, delay, call, 0)
  }

  /* --------------------------------------------------------- generate_content */

  /** What the model SDK does for one request: reply with some text, or raise. */
  datatype ModelReply = Reply(text: string) | Raise(message: string)

  const EmptyResponseMessage := "Empty response from AI model"

  /** One attempt of `generate_content`: an empty reply is turned into an error. */
  function GenerateAttempt(reply: ModelReply): Outcome {
    match reply
    case Raise(m) => Failure(m)
    case Reply(text) => if text == "" then Failure(EmptyResponseMessage) else Success(text)
  }

  const GenerateMaxRetries := 3
  const GenerateDelay := 2

  /** `generate_content`: three attempts, sleeping 2 then 4 seconds between them. */
  function GenerateContent(replies: nat -> ModelReply): (t: Trace)
    ensures 1 <= t.attempts <= 3
    ensures t.delays == [2, 4][..t.attempts - 1]
    ensures t.result != ReturnedNone
    // a returned text is the non-empty reply of the last attempt
    ensures t.result.Returned? ==> t.result.text != "" && replies(t.attempts - 1) == Reply(t.result.text)
    // every earlier attempt gave an empty reply or raised a retryable error
    ensures forall k | 0 <= k < t.attempts - 1 :: RetriedReply(replies(k))
    // a non-empty first reply is returned at once
    ensures replies(0).Reply? && replies(0).text != "" ==> t == Trace(Returned(replies(0).text), 1, [])
    // the last attempt decides: an empty reply or a retryable raise ends the call only on the third attempt
    ensures EndsWith(GenerateAttempt(replies(t.attempts - 1)), t.attempts == GenerateMaxRetries, t.result)
  {
    var call := (k: nat) => GenerateAttempt(replies(k));
    var t := RetryOnError(GenerateMaxRetries, GenerateDelay, call);
    assert forall k | 0 <= k < t.attempts - 1 :: Retryable(GenerateAttempt(replies(k))) by {
      forall k | 0 <= k < t.attempts - 1 ensures Retryable(GenerateAttempt(replies(k))) {
        assert Retryable(call(k));
      }
    }
    assert EndsWith(GenerateAttempt(replies(t.attempts - 1)), t.attempts == GenerateMaxRetries, t.result) by {
      assert EndsWith(call(t.attempts - 1), t.attempts == GenerateMaxRetries, t.result);
    }
    GenerateShape(replies, t);
    t
  }

  /** What the retry contract of three attempts with a two-second delay says about the replies. */
  lemma GenerateShape(replies: nat -> ModelReply, t: Trace)
    requires 1 <= t.attempts <= 3 && t.result != ReturnedNone && |t.delays| == t.attempts - 1
    requires forall k | 0 <= k < |t.delays| :: t.delays[k] == GenerateDelay * Pow2(k)
    requires forall k | 0 <= k < t.attempts - 1 :: Retryable(GenerateAttempt(replies(k)))
    requires EndsWith(GenerateAttempt(replies(t.attempts - 1)), t.attempts == GenerateMaxRetries, t.result)
    ensures t.delays == [2, 4][..t.attempts - 1]
    ensures t.result.Returned? ==> t.result.text != "" && replies(t.attempts - 1) == Reply(t.result.text)
    ensures forall k | 0 <= k < t.attempts - 1 :: RetriedReply(replies(k))
    ensures replies(0).Reply? && replies(0).text != "" ==> t == Trace(Returned(replies(0).text), 1, [])
  {
    DoublingFromTwo(t);
    ReturnedReplyIsNonEmpty(replies(t.attempts - 1), t.attempts == GenerateMaxRetries, t.result);
    RetriedReplies(replies, t.attempts - 1);
    FirstReplyReturned(replies, t);
  }

  /** An attempt the wrapper retries: an empty reply, or a raise that is neither a quota nor a key error. */
  predicate RetriedReply(reply: ModelReply) {
    match reply
    case Reply(text) => text == ""
    case Raise(m) => !IsQuotaError(m) && !IsInvalidKeyError(m)
  }

  lemma RetriedReplies(replies: nat -> ModelReply, n: int)
    requires forall k | 0 <= k < n :: Retryable(GenerateAttempt(replies(k)))
    ensures forall k | 0 <= k < n :: RetriedReply(replies(k))
  {
    forall k | 0 <= k < n ensures RetriedReply(replies(k)) {
      assert Retryable(GenerateAttempt(replies(k)));
    }
  }

  lemma FirstReplyReturned(replies: nat -> ModelReply, t: Trace)
    requires 1 <= t.attempts <= 3 && t.delays == [2, 4][..t.attempts - 1]
    requires forall k | 0 <= k < t.attempts - 1 :: Retryable(GenerateAttempt(replies(k)))
    requires EndsWith(GenerateAttempt(replies(t.attempts - 1)), t.attempts == GenerateMaxRetries, t.result)
    ensures replies(0).Reply? && replies(0).text != "" ==> t == Trace(Returned(replies(0).text), 1, [])
  {
    if replies(0).Reply? && replies(0).text != "" && t.attempts > 1 {
      assert false;
    }
  }

  /** With three attempts and a two-second base delay, the sleeps are a prefix of [2, 4]. */
  lemma DoublingFromTwo(t: Trace)
    requires 1 <= t.attempts <= 3 && |t.delays| == t.attempts - 1
    requires forall k | 0 <= k < |t.delays| :: t.delays[k] == GenerateDelay * Pow2(k)
    ensures t.delays == [2, 4][..t.attempts - 1]
  {
    assert Pow2(1) == 2;
    if t.attempts == 3 {
      assert t.delays == [t.delays[0], t.delays[1]];
    } else if t.attempts == 2 {
      assert t.delays == [t.delays[0]];
    }
  }

  /** A value is returned only from a non-empty reply. */
  lemma ReturnedReplyIsNonEmpty(reply: ModelReply, exhausted: bool, result: CallResult)
    requires EndsWith(GenerateAttempt(reply), exhausted, result)
    ensures result.Returned? ==> result.text != "" && reply == Reply(result.text)
  {
  }

  /** An empty reply is neither a quota nor a key error, so it is retried. */
  lemma EmptyReplyIsRetried()
    ensures Retryable(GenerateAttempt(Reply("")))
  {
    var lowered := ToLower(EmptyResponseMessage);
    assert forall i | 0 <= i < |lowered| :: lowered[i] != 'q' && lowered[i] != 'v';
    MissingFirstChar(lowered, "quota");
    MissingCharInside(lowered, "invalid", 2);
  }

  /** An empty reply never ends the call before the third attempt: it is followed by another attempt. */
  lemma EmptyReplyGetsAnotherAttempt(replies: nat -> ModelReply, k: nat)
    requires k < GenerateMaxRetries - 1 && replies(k) == Reply("")
    requires k < GenerateContent(replies).attempts
    ensures GenerateContent(replies).attempts > k + 1
  {
    var t := GenerateContent(replies);
    EmptyReplyIsRetried();
    if t.attempts == k + 1 {
      assert false;
    }
  }

  /** When all three replies are empty, all three attempts are made and the empty-reply error is raised. */
  lemma AllEmptyRaises(replies: nat -> ModelReply)
    requires replies(0) == Reply("") && replies(1) == Reply("") && replies(2) == Reply("")
    ensures GenerateContent(replies) == Trace(Raised(EmptyResponseMessage), 3, [2, 4])
  {
    var t := GenerateContent(replies);
    EmptyReplyGetsAnotherAttempt(replies, 0);
    EmptyReplyGetsAnotherAttempt(replies, 1);
    assert t.attempts == 3;
    assert [2, 4][..2] == [2, 4];
    EmptyReplyIsRetried();
  }

  /** A string without some character of `pat` cannot contain `pat`. */
  lemma MissingCharInside(s: string, pat: string, k: int)
    requires 0 <= k < |pat|
    requires forall i | 0 <= i < |s| :: s[i] != pat[k]
    ensures !Contains(s, pat)
  {
    forall i | 0 <= i <= |s| ensures !OccursAt(s, pat, i) {
      if i + |pat| <= |s| {
        assert s[i..i + |pat|][k] == s[i + k];
      }
    }
  }

  /** A quota error on the first attempt is raised at once: one attempt, no sleep. */
  lemma QuotaStopsAtOnce(maxRetries: int, delay: nat, call: nat -> Outcome)
    requires maxRetries > 0
    requires call(0).Failure? && IsQuotaError(call(0).message)
    ensures RetryOnError(maxRetries, delay, call) == Trace(Raised(QuotaMessage), 1, [])
  {
  }

  /** An invalid-key error that is not a quota error is also raised at once, with the key message. */
  lemma InvalidKeyStopsAtOnce(maxRetries: int, delay: nat, call: nat -> Outcome)
    requires maxRetries > 0
    requires call(0).Failure? && !IsQuotaError(call(0).message) && IsInvalidKeyError(call(0).message)
    ensures RetryOnError(maxRetries, delay, call) == Trace(Raised(InvalidKeyMessage), 1, [])
  {
  }

  /** When every attempt fails with a retryable error, all attempts are used and the last error is re-raised. */
  lemma ExhaustedReraisesLast(maxRetries: int, delay: nat, call: nat -> Outcome)
    requires maxRetries > 0
    requires forall k: nat | k < maxRetries :: Retryable(call(k))
    ensures RetryOnError(maxRetries, delay, call).attempts == maxRetries
    ensures var last := call(maxRetries - 1);
      last.Failure? && RetryOnError(maxRetries, delay, call).result == Raised(last.message)
  {
    var t := RetryOnError(maxRetries, delay, call);
    assert Retryable(call(t.attempts - 1));
  }

  /* ------------------------------------------------------------ reply parsing */

  const ExpectedAnswerMarker := "Expected Answer:"
  const QuestionMarker := "Question:"
  const FollowUpMarker := "Follow-up Question:"

  const NoModelAnswer := "No model answer provided."
  const NoFollowUp := "No follow-up provided."
  const NoFollowUpAnswer := "No model answer for follow-up."

  /** The question card `generate_interview_question` builds from a reply. */
  datatype QuestionData = QuestionData(question: string, expectedAnswer: string)

  /** Splitting the reply of `generate_interview_question`. */
  function ParseQuestionReply(reply: string): (r: QuestionData)
    ensures !Contains(reply, ExpectedAnswerMarker) ==>
      r == QuestionData(Strip(ReplaceFirst(reply, QuestionMarker, "")), NoModelAnswer)
    ensures forall i | FirstOccurrence(reply, ExpectedAnswerMarker, i) ::
      r == QuestionData(Strip(ReplaceFirst(reply[..i], QuestionMarker, "")),
                        Strip(reply[i + |ExpectedAnswerMarker|..]))
    ensures Trimmed(r.question) && Trimmed(r.expectedAnswer)
  {
    var parts := SplitOnce(reply, ExpectedAnswerMarker);
    var question := Strip(ReplaceFirst(parts.head, QuestionMarker, ""));
    match parts.tail
    case None =>
      assert Trimmed(NoModelAnswer);
      QuestionData(question, NoModelAnswer)
    case Some(rest) => QuestionData(question, Strip(rest))
  }

  /** The three pieces `evaluate_response` returns. */
  datatype Evaluation = Evaluation(assessment: string, followUpQuestion: string, followUpExpected: string)

  /** Splitting the follow-up part on its first expected-answer marker. */
  function ParseFollowUp(part: string): (r: (string, string))
    ensures !Contains(part, ExpectedAnswerMarker) ==> r == (Strip(part), NoFollowUpAnswer)
    ensures forall j | FirstOccurrence(part, ExpectedAnswerMarker, j) ::
      r == (Strip(part[..j]), Strip(part[j + |ExpectedAnswerMarker|..]))
  {
    var pieces := SplitOnce(part, ExpectedAnswerMarker);
    match pieces.tail
    case None => (Strip(pieces.head), NoFollowUpAnswer)
    case Some(answer) => (Strip(pieces.head), Strip(answer))
  }

  /** Splitting the reply of `evaluate_response`. */
  function ParseEvaluationReply(reply: string): (r: Evaluation)
    // the assessment never contains the follow-up marker
    ensures !Contains(r.assessment, FollowUpMarker)
    // without the marker: the whole reply is the assessment and both placeholders are used
    ensures !Contains(reply, FollowUpMarker) ==>
      r == Evaluation(Strip(reply), NoFollowUp, NoFollowUpAnswer)
    // with it: the assessment precedes its first occurrence, the follow-up is split after it
    ensures forall i | FirstOccurrence(reply, FollowUpMarker, i) ::
      r.assessment == Strip(reply[..i])
      && (r.followUpQuestion, r.followUpExpected) == ParseFollowUp(reply[i + |FollowUpMarker|..])
  {
    var parts := SplitOnce(reply, FollowUpMarker);
    StripNotContains(parts.head, FollowUpMarker);
    var followUpPart := match parts.tail case None => NoFollowUp case Some(rest) => rest;
    PlaceholderHasNoAnswer();
    var (question, expected) := ParseFollowUp(followUpPart);
    Evaluation(Strip(parts.head), question, expected)
  }

  /** The follow-up placeholder splits into itself and the answer placeholder. */
  lemma PlaceholderHasNoAnswer()
    ensures ParseFollowUp(NoFollowUp) == (NoFollowUp, NoFollowUpAnswer)
  {
    assert forall i | 0 <= i < |NoFollowUp| :: NoFollowUp[i] != 'E';
    MissingFirstChar(NoFollowUp, ExpectedAnswerMarker);
    StripTrimmed(NoFollowUp);
  }
}

=== FILE: helpers.dfy ===
/**
 The small pure utilities: averaging metric dictionaries, formatting and
 parsing durations, truncating text, progress towards a target, and the
 trend arrow.
 */
module Helpers {
  import opened Results
  import opened Text
  import opened ScoreExtraction
  import opened MetricsCalculator

  /* ------------------------------------------------------ average metrics */

  type Metrics = map<string, real>

  /** `[m[key] for m in metrics_list if key in m]`. */
  function ValuesFor(list: seq<Metrics>, key: string): (vs: seq<real>)
    ensures |vs| <= |list|
    ensures |list| > 0 && key in list[0] ==> |vs| > 0 && vs[0] == list[0][key]
  {
    if |list| == 0 then []
    else (if key in list[0] then [list[0][key]] else []) + ValuesFor(list[1..], key)
  }

  /** `calculate_average_metrics`. */
  function CalculateAverageMetrics(list: seq<Metrics>): (r: Metrics)
    ensures |list| == 0 ==> r == map[]
    // the keys are exactly those of the first dictionary
    ensures |list| > 0 ==> r.Keys == list[0].Keys
    // each value is the mean over the dictionaries that have the key
    ensures forall k | k in r :: |ValuesFor(list, k)| > 0 && r[k] == Mean(ValuesFor(list, k))
  {
    if |list| == 0 then map[]
    else map k | k in list[0] :: Mean(ValuesFor(list, k))
  }

  lemma {:induction false} SumOfCopies(v: real, n: nat)
    ensures Sum(seq(n, _ => v)) == n as real * v
  {
    if n > 0 {
      assert seq(n, _ => v)[..n - 1] == seq(n - 1, _ => v);
      SumOfCopies(v, n - 1);
    }
  }

  lemma {:induction false} ValuesOfCopies(m: Metrics, n: nat, key: string)
    requires key in m
    ensures ValuesFor(seq(n, _ => m), key) == seq(n, _ => m[key])
  {
    if n > 0 {
      assert seq(n, _ => m)[1..] == seq(n - 1, _ => m);
      ValuesOfCopies(m, n - 1, key);
      assert [m[key]] + seq(n - 1, _ => m[key]) == seq(n, _ => m[key]);
    }
  }

  lemma MeanOfCopies(v: real, n: nat)
    requires n > 0 && Sum(seq(n, _ => v)) == n as real * v
    ensures Mean(seq(n, _ => v)) == v
  {
  }

  /** Averaging copies of one dictionary gives that dictionary back. */
  lemma AverageOfCopies(m: Metrics, n: nat)
    requires n > 0
    ensures CalculateAverageMetrics(seq(n, _ => m)) == m
  {
    var r := CalculateAverageMetrics(seq(n, _ => m));
    assert seq(n, _ => m)[0] == m;
    forall k | k in m ensures r[k] == m[k] {
      AverageOfCopiesAt(m, n, k);
    }
  }

  lemma AverageOfCopiesAt(m: Metrics, n: nat, k: string)
    requires n > 0 && k in m
    ensures k in CalculateAverageMetrics(seq(n, _ => m))
    ensures CalculateAverageMetrics(seq(n, _ => m))[k] == m[k]
  {
    assert seq(n, _ => m)[0] == m;
    ValuesOfCopies(m, n, k);
    SumOfCopies(m[k], n);
    MeanOfCopies(m[k], n);
  }

  predicate ScoresInRange(list: seq<Metrics>) {
    forall i, k | 0 <= i < |list| && k in list[i] :: InScoreRange(list[i][k])
  }

  lemma {:induction false} ValuesInRange(list: seq<Metrics>, key: string)
    requires ScoresInRange(list)
    ensures AllInScoreRange(ValuesFor(list, key))
  {
    if |list| > 0 {
      assert ScoresInRange(list[1..]) by {
        forall i, k | 0 <= i < |list| - 1 && k in list[1..][i] ensures InScoreRange(list[1..][i][k]) {
          assert list[1..][i] == list[i + 1];
        }
      }
      ValuesInRange(list[1..], key);
    }
  }

  /** Averages of scores in [1, 10] stay in [1, 10]. */
  lemma AverageInScoreRange(list: seq<Metrics>)
    requires ScoresInRange(list)
    ensures forall k | k in CalculateAverageMetrics(list) :: InScoreRange(CalculateAverageMetrics(list)[k])
  {
    forall k | k in CalculateAverageMetrics(list) ensures InScoreRange(CalculateAverageMetrics(list)[k]) {
      ValuesInRange(list, k);
      MeanInScoreRange(ValuesFor(list, k));
    }
  }

  /* ------------------------------------------------------------- decimals */

  predicate IsDigit(c: char) { '0' <= c <= '9' }

  predicate AllDigits(s: string) {
    forall i | 0 <= i < |s| :: IsDigit(s[i])
  }

  function DigitChar(d: int): (c: char)
    requires 0 <= d < 10
    ensures IsDigit(c)
  {
    (48 + d) as char
  }

  /** The value of a string of decimal digits (leading zeros allowed). */
  function DigitsValue(s: string): nat
    requires AllDigits(s)
  {
    if |s| == 0 then 0 else DigitsValue(s[..|s| - 1]) * 10 + (s[|s| - 1] as int - 48)
  }

  /** `str(n)` for a non-negative integer. */
  function NatToString(n: nat): (r: string)
    ensures |r| > 0 && AllDigits(r)
  {
    if n < 10 then [DigitChar(n)] else NatToString(n / 10) + [DigitChar(n % 10)]
  }

  lemma {:induction false} NatToStringValue(n: nat)
    ensures DigitsValue(NatToString(n)) == n
  {
    if n >= 10 {
      var p := NatToString(n / 10);
      NatToStringValue(n / 10);
      assert (p + [DigitChar(n % 10)])[..|p|] == p;
    }
  }

  /** What `int()` accepts here: an optional sign followed by at least one decimal digit. */
  predicate IsIntLiteral(t: string) {
    || (|t| > 0 && AllDigits(t))
    || (|t| > 1 && (t[0] == '+' || t[0] == '-') && AllDigits(t[1..]))
  }

  /** The message of the `ValueError` `int(t)` raises, with the token between single quotes. */
  function InvalidLiteral(t: string): string {
    "invalid literal for int() with base 10: '" + t + "'"
  }

  /** `int(t)` in base 10. */
  function ParseInt(t: string): (r: Result<int, string>)
    ensures r.Ok? <==> IsIntLiteral(t)
    ensures r.Err? ==> r.error == InvalidLiteral(t)
    ensures |t| > 0 && AllDigits(t) ==> r == Ok(DigitsValue(t))
  {
    var signed := |t| > 0 && (t[0] == '+' || t[0] == '-');
    var digits := if signed then t[1..] else t;
    if |digits| == 0 || !AllDigits(digits) then Err(InvalidLiteral(t))
    else if signed && t[0] == '-' then Ok(0 - DigitsValue(digits) as int)
    else Ok(DigitsValue(digits))
  }

  /** `int(str(n)) == n`. */
  lemma ParseNatToString(n: nat)
    ensures ParseInt(NatToString(n)) == Ok(n)
  {
    NatToStringValue(n);
  }

  /* ------------------------------------------------------------- durations */

  const SecondsPerDay := 86400
  const SecondsPerHour := 3600

  /** A number followed by its unit letter, such as `30m`. */
  function Field(n: nat, unit: char): string {
    NatToString(n) + [unit]
  }

  /** Two fields separated by one blank, the shape of every formatted duration. */
  function TwoFields(a: nat, u: char, b: nat, v: char): string {
    Field(a, u) + " " + Field(b, v)
  }

  /** The two numbers and unit letters a formatted duration shows. */
  datatype Fields = Fields(first: nat, firstUnit: char, second: nat, secondUnit: char)

  /** What the fields of a formatted duration must be, by magnitude. From one day on: at least one whole day,
      then the whole hours left over. Otherwise the day count is 0 or negative and only the remainder within
      the day is shown: hours and minutes from one hour on, minutes and seconds below. */
  predicate DurationShape(seconds: int, f: Fields) {
    && (seconds >= SecondsPerDay ==>
      && f.firstUnit == 'd' && f.secondUnit == 'h' && f.first >= 1 && f.second < 24
      && f.first * SecondsPerDay + f.second * SecondsPerHour <= seconds < f.first * SecondsPerDay + (f.second + 1) * SecondsPerHour)
    && (seconds < SecondsPerDay && seconds % SecondsPerDay >= SecondsPerHour ==>
      && f.firstUnit == 'h' && f.secondUnit == 'm' && 1 <= f.first < 24 && f.second < 60
      && f.first * SecondsPerHour + f.second * 60 <= seconds % SecondsPerDay < f.first * SecondsPerHour + (f.second + 1) * 60)
    && (seconds < SecondsPerDay && seconds % SecondsPerDay < SecondsPerHour ==>
      && f.firstUnit == 'm' && f.secondUnit == 's' && f.first < 60 && f.second < 60
      && f.first * 60 + f.second == seconds % SecondsPerDay)
  }

  /** The fields `format_duration` picks: `timedelta` keeps whole days and a remainder in [0, 86400), both by floor division. */
  function DurationFields(seconds: int): (f: Fields)
    ensures DurationShape(seconds, f)
  {
    var days := seconds / SecondsPerDay;
    var rest := seconds % SecondsPerDay;
    if days > 0 then
      DaysAndHours(seconds);
      Fields(days, 'd', rest / SecondsPerHour, 'h')
    else if rest >= SecondsPerHour then
      HoursAndMinutesBracket(rest);
      Fields(rest / SecondsPerHour, 'h', (rest / 60) % 60, 'm')
    else Fields(rest / 60, 'm', rest % 60, 's')
  }

  lemma DaysAndHours(s: int)
    requires s >= SecondsPerDay
    ensures var d, h := s / SecondsPerDay, (s % SecondsPerDay) / SecondsPerHour;
      && d >= 1 && 0 <= h < 24
      && d * SecondsPerDay + h * SecondsPerHour <= s < d * SecondsPerDay + (h + 1) * SecondsPerHour
  {
  }

  lemma HoursAndMinutesBracket(r: int)
    requires SecondsPerHour <= r < SecondsPerDay
    ensures var h, m := r / SecondsPerHour, (r / 60) % 60;
      && 1 <= h < 24 && 0 <= m < 60
      && h * SecondsPerHour + m * 60 <= r < h * SecondsPerHour + (m + 1) * 60
  {
    var q := r / 60;
    assert r == 60 * q + r % 60;
    assert q == 60 * (q / 60) + q % 60;
    assert r / SecondsPerHour == q / 60;
  }

  /** The shape pins the fields down: no two different field choices fit the same duration. */
  lemma DurationShapeUnique(seconds: int, f: Fields, g: Fields)
    requires DurationShape(seconds, f) && DurationShape(seconds, g)
    ensures f == g
  {
    if seconds >= SecondsPerDay {
      SameBracket(seconds, 24 * f.first + f.second, 24 * g.first + g.second, SecondsPerHour);
    } else if seconds % SecondsPerDay >= SecondsPerHour {
      SameBracket(seconds % SecondsPerDay, 60 * f.first + f.second, 60 * g.first + g.second, 60);
    }
  }

  /** Two brackets `[k * w, (k + 1) * w)` of the same width that hold the same value are the same bracket. */
  lemma SameBracket(x: int, k: int, l: int, w: int)
    requires w > 0
    requires k * w <= x < (k + 1) * w && l * w <= x < (l + 1) * w
    ensures k == l
  {
    if k < l {
      assert (k + 1) * w <= l * w by { MulMonotone(k + 1, l, w); }
    } else if l < k {
      assert (l + 1) * w <= k * w by { MulMonotone(l + 1, k, w); }
    }
  }

  lemma MulMonotone(a: int, b: int, w: int)
    requires a <= b && w > 0
    ensures a * w <= b * w
  {
  }

  /** `format_duration`. */
  function FormatDuration(seconds: int): (r: string)
    // the unit of the last field shows which shape was chosen
    ensures |r| > 0 && r[|r| - 1] == (if seconds >= SecondsPerDay then 'h'
                                      else if seconds % SecondsPerDay >= SecondsPerHour then 'm'
                                      else 's')
  {
    var f := DurationFields(seconds);
    TwoFields(f.first, f.firstUnit, f.second, f.secondUnit)
  }

  /** A negative duration is shown as its remainder within a day, so `-1` reads as 23 hours 59 minutes. */
  lemma NegativeShowsRemainder(s: int)
    requires s < 0
    ensures FormatDuration(s) == FormatDuration(s % SecondsPerDay)
  {
    var rest := s % SecondsPerDay;
    assert rest % SecondsPerDay == rest;
  }

  /** Seconds per unit of a token suffix; 0 for a token parse_duration_string ignores. */
  function UnitFactor(c: char): nat {
    if c == 'h' then 3600 else if c == 'm' then 60 else if c == 's' then 1 else 0
  }

  /** The seconds one token contributes, or the error `int()` raises on its number. */
  function PartSeconds(part: string): Result<int, string> {
    if |part| == 0 || UnitFactor(part[|part| - 1]) == 0 then Ok(0)
    else
      match ParseInt(part[..|part| - 1])
      case Ok(v) => Ok(v * UnitFactor(part[|part| - 1]))
      case Err(e) => Err(e)
  }

  /** A token without an h, m or s suffix counts for nothing; one with a suffix fails exactly when `int()` rejects its number. */
  lemma PartSecondsCases(part: string)
    ensures |part| == 0 || UnitFactor(part[|part| - 1]) == 0 ==> PartSeconds(part) == Ok(0)
    ensures |part| > 0 && UnitFactor(part[|part| - 1]) > 0 ==>
      (PartSeconds(part).Ok? <==> IsIntLiteral(part[..|part| - 1]))
  {
  }

  /** An `h` token is worth 3600 times its number, an `m` token 60 times, an `s` token the number itself. */
  lemma TokenValue(n: string, unit: char)
    requires IsIntLiteral(n)
    ensures unit == 'h' ==> PartSeconds(n + [unit]) == Ok(3600 * ParseInt(n).value)
    ensures unit == 'm' ==> PartSeconds(n + [unit]) == Ok(60 * ParseInt(n).value)
    ensures unit == 's' ==> PartSeconds(n + [unit]) == Ok(ParseInt(n).value)
  {
    assert (n + [unit])[..|n|] == n;
  }

  /** Every token either is ignored or carries a well-formed integer. */
  predicate AllPartsParse(parts: seq<string>) {
    forall i | 0 <= i < |parts| :: PartSeconds(parts[i]).Ok?
  }

  /** `f` applied to each element, in order. */
  function Map<A, B>(f: A -> B, xs: seq<A>): (ys: seq<B>)
    ensures |ys| == |xs|
    ensures forall i | 0 <= i < |xs| :: ys[i] == f(xs[i])
  {
    seq(|xs|, i requires 0 <= i < |xs| => f(xs[i]))
  }

  lemma MapAppend<A, B>(f: A -> B, xs: seq<A>, ys: seq<A>)
    ensures Map(f, xs + ys) == Map(f, xs) + Map(f, ys)
  {
    var l, r := Map(f, xs + ys), Map(f, xs) + Map(f, ys);
    forall i | 0 <= i < |l| ensures l[i] == r[i] {
      if i < |xs| {
        assert (xs + ys)[i] == xs[i];
      } else {
        assert (xs + ys)[i] == ys[i - |xs|];
      }
    }
  }

  /** What each token contributes, in order. */
  function PartValues(parts: seq<string>): seq<Result<int, string>> {
    Map(PartSeconds, parts)
  }

  /** The running total; the first error ends the loop. */
  function Total(rs: seq<Result<int, string>>): Result<int, string> {
    if |rs| == 0 then Ok(0)
    else
      match rs[0]
      case Err(e) => Err(e)
      case Ok(v) =>
        match Total(rs[1..])
        case Err(e) => Err(e)
        case Ok(w) => Ok(v + w)
  }

  predicate AllOk(rs: seq<Result<int, string>>) {
    forall i | 0 <= i < |rs| :: rs[i].Ok?
  }

  /** The loop finishes exactly when no token raises. */
  lemma {:induction false} TotalOk(rs: seq<Result<int, string>>)
    ensures Total(rs).Ok? <==> AllOk(rs)
  {
    if |rs| > 0 {
      TotalOk(rs[1..]);
      assert forall i | 1 <= i < |rs| :: rs[i] == rs[1..][i - 1];
    }
  }

  /** Totals add up over joined lists. */
  lemma {:induction false} TotalAppend(rs: seq<Result<int, string>>, ss: seq<Result<int, string>>, x: int, y: int)
    requires Total(rs) == Ok(x) && Total(ss) == Ok(y)
    ensures Total(rs + ss) == Ok(x + y)
    decreases |rs|
  {
    if |rs| == 0 {
      assert rs + ss == ss;
    } else {
      var v := rs[0].value;
      TotalAppend(rs[1..], ss, x - v, y);
      assert (rs + ss)[0] == rs[0] && (rs + ss)[1..] == rs[1..] + ss;
    }
  }

  /** The loop of `parse_duration_string` over its tokens. */
  function SumParts(parts: seq<string>): Result<int, string> {
    Total(PartValues(parts))
  }

  /** `parse_duration_string`. */
  function ParseDurationString(s: string): (r: Result<int, string>)
    ensures s == "" ==> r == Ok(0)
    // it fails exactly when a token with a unit suffix has no integer in front of it
    ensures r.Ok? <==> AllPartsParse(Words(ToLower(s)))
  {
    var parts := Words(ToLower(s));
    TotalOk(PartValues(parts));
    SumParts(parts)
  }

  /** The totals of two token lists add up when the lists are joined. */
  lemma SumPartsAppend(p: seq<string>, q: seq<string>, x: int, y: int)
    requires SumParts(p) == Ok(x) && SumParts(q) == Ok(y)
    ensures SumParts(p + q) == Ok(x + y)
  {
    MapAppend(PartSeconds, p, q);
    TotalAppend(PartValues(p), PartValues(q), x, y);
  }

  /** Parsing adds up over texts joined by a blank: `parse("1h 30m") == parse("1h") + parse("30m")`. */
  lemma ParseConcat(a: string, b: string, x: int, y: int)
    requires ParseDurationString(a) == Ok(x) && ParseDurationString(b) == Ok(y)
    ensures ParseDurationString(a + " " + b) == Ok(x + y)
  {
    var pa, pb := Words(ToLower(a)), Words(ToLower(b));
    ParseOfWords(a, pa);
    ParseOfWords(b, pb);
    SumPartsAppend(pa, pb, x, y);
    ToLowerJoin(a, b);
    WordsJoin(ToLower(a), ToLower(b));
    ParseOfWords(a + " " + b, pa + pb);
  }

  /** A token with an h, m or s suffix and a malformed number makes the whole parse fail. */
  lemma BadNumberFails(s: string, i: int)
    requires 0 <= i < |Words(ToLower(s))|
    requires var w := Words(ToLower(s))[i]; UnitFactor(w[|w| - 1]) > 0 && !IsIntLiteral(w[..|w| - 1])
    ensures ParseDurationString(s).Err?
  {
  }

  lemma LowerOfLower(s: string)
    requires forall i | 0 <= i < |s| :: !('A' <= s[i] <= 'Z')
    ensures ToLower(s) == s
  {
  }

  /** What one formatted field is worth to the parser: hours, minutes and seconds by their unit, days nothing. */
  lemma FieldWorth(n: nat, unit: char)
    ensures unit == 'h' ==> PartSeconds(Field(n, unit)) == Ok(3600 * n)
    ensures unit == 'm' ==> PartSeconds(Field(n, unit)) == Ok(60 * n)
    ensures unit == 's' ==> PartSeconds(Field(n, unit)) == Ok(n)
    ensures unit == 'd' ==> PartSeconds(Field(n, unit)) == Ok(0)
  {
    var f := Field(n, unit);
    assert f[|f| - 1] == unit;
    if unit == 'h' || unit == 'm' || unit == 's' {
      ParseNatToString(n);
      TokenValue(NatToString(n), unit);
    }
  }

  predicate NoUpper(s: string) {
    forall i | 0 <= i < |s| :: !('A' <= s[i] <= 'Z')
  }

  /** A field is one word of digits and a lower-case unit letter. */
  lemma FieldShape(n: nat, unit: char)
    requires 'a' <= unit <= 'z'
    ensures |Field(n, unit)| > 0 && NoSpace(Field(n, unit)) && NoUpper(Field(n, unit))
  {
    var f := Field(n, unit);
    assert forall i | 0 <= i < |f| - 1 :: IsDigit(f[i]);
  }

  lemma JoinedNoUpper(x: string, y: string)
    requires NoUpper(x) && NoUpper(y)
    ensures NoUpper(x + " " + y)
  {
  }

  lemma SumOfTwoParts(x: string, y: string, p: int, q: int, total: int)
    requires PartSeconds(x) == Ok(p) && PartSeconds(y) == Ok(q)
    requires total == p + q
    ensures SumParts([x, y]) == Ok(total)
  {
    var rs := PartValues([x, y]);
    assert rs == [Ok(p), Ok(q)];
    assert rs[1..] == [Ok(q)] && rs[1..][1..] == [];
    assert Total(rs[1..]) == Ok(q + 0);
  }

  /** The two fields are exactly the two tokens the parser sees. */
  lemma TwoFieldWords(a: nat, u: char, b: nat, v: char)
    requires 'a' <= u <= 'z' && 'a' <= v <= 'z'
    ensures Words(ToLower(TwoFields(a, u, b, v))) == [Field(a, u), Field(b, v)]
  {
    var x, y := Field(a, u), Field(b, v);
    FieldShape(a, u);
    FieldShape(b, v);
    JoinedNoUpper(x, y);
    LowerOfLower(x + " " + y);
    WordsOfTwo(x, y);
  }

  /** Two fields joined by a blank parse to the sum of what each is worth. */
  lemma ParseTwoFields(a: nat, u: char, b: nat, v: char, p: int, q: int, total: int)
    requires 'a' <= u <= 'z' && 'a' <= v <= 'z'
    requires PartSeconds(Field(a, u)) == Ok(p) && PartSeconds(Field(b, v)) == Ok(q)
    requires total == p + q
    ensures ParseDurationString(TwoFields(a, u, b, v)) == Ok(total)
  {
    var x, y := Field(a, u), Field(b, v);
    SumOfTwoParts(x, y, p, q, total);
    TwoFieldWords(a, u, b, v);
    ParseOfWords(TwoFields(a, u, b, v), [x, y]);
  }

  /** Minutes and seconds add up to the seconds they stand for. */
  lemma ParseMinutesSeconds(text: string, m: nat, sec: nat, total: int)
    requires text == TwoFields(m, 'm', sec, 's') && total == 60 * m + sec
    ensures ParseDurationString(text) == Ok(total)
  {
    FieldWorth(m, 'm');
    FieldWorth(sec, 's');
    ParseTwoFields(m, 'm', sec, 's', 60 * m, sec, total);
  }

  /** Hours and minutes add up to the seconds they stand for. */
  lemma ParseHoursMinutes(text: string, h: nat, m: nat, total: int)
    requires text == TwoFields(h, 'h', m, 'm') && total == 3600 * h + 60 * m
    ensures ParseDurationString(text) == Ok(total)
  {
    FieldWorth(h, 'h');
    FieldWorth(m, 'm');
    ParseTwoFields(h, 'h', m, 'm', 3600 * h, 60 * m, total);
  }

  /** A day field is no unit the parser knows: only the hours count. */
  lemma ParseDaysHours(text: string, d: nat, h: nat, total: int)
    requires text == TwoFields(d, 'd', h, 'h') && total == 3600 * h
    ensures ParseDurationString(text) == Ok(total)
  {
    FieldWorth(d, 'd');
    FieldWorth(h, 'h');
    ParseTwoFields(d, 'd', h, 'h', 0, 3600 * h, total);
  }

  lemma ParseOfWords(text: string, parts: seq<string>)
    requires Words(ToLower(text)) == parts
    ensures ParseDurationString(text) == SumParts(parts)
  {
  }

  /** Under an hour, formatting then parsing gives the seconds back. */
  lemma FormatParseUnderHour(s: int)
    requires 0 <= s < SecondsPerHour
    ensures ParseDurationString(FormatDuration(s)) == Ok(s)
  {
    var f := DurationFields(s);
    assert s % SecondsPerDay == s;
    ParseMinutesSeconds(FormatDuration(s), f.first, f.second, s);
  }

  /** Under a day, formatting then parsing gives the seconds rounded down to whole minutes. */
  lemma FormatParseUnderDay(s: int)
    requires SecondsPerHour <= s < SecondsPerDay
    ensures ParseDurationString(FormatDuration(s)) == Ok(s - s % 60)
  {
    var h, m := HoursMinutesText(s);
    ParseHoursMinutes(FormatDuration(s), h, m, s - s % 60);
  }

  /** Under a day, the text shows hours and minutes that make up the seconds rounded down to whole minutes. */
  lemma HoursMinutesText(s: int) returns (h: nat, m: nat)
    requires SecondsPerHour <= s < SecondsPerDay
    ensures FormatDuration(s) == TwoFields(h, 'h', m, 'm')
    ensures s - s % 60 == 3600 * h + 60 * m
  {
    var f := DurationFields(s);
    HoursMinutesFloor(s, f);
    FormatFields(s, f);
    h, m := f.first, f.second;
  }

  /** The formatted text is the two fields with their units. */
  lemma FormatFields(s: int, f: Fields)
    requires f == DurationFields(s)
    ensures FormatDuration(s) == TwoFields(f.first, f.firstUnit, f.second, f.secondUnit)
  {
  }

  /** Under a day, the hour and minute fields make up the seconds rounded down to whole minutes. */
  lemma HoursMinutesFloor(s: int, f: Fields)
    requires SecondsPerHour <= s < SecondsPerDay && DurationShape(s, f)
    ensures f.firstUnit == 'h' && f.secondUnit == 'm'
    ensures s - s % 60 == 3600 * f.first + 60 * f.second
  {
    assert s % SecondsPerDay == s;
    FloorToMinute(s, 60 * f.first + f.second);
  }

  lemma FloorToMinute(s: int, k: int)
    requires 60 * k <= s < 60 * k + 60
    ensures s - s % 60 == 60 * k
  {
  }

  /** From one day on, the day count is not a unit the parser knows: only the hours survive. */
  lemma FormatParseDropsDays(s: int)
    requires s >= SecondsPerDay
    ensures ParseDurationString(FormatDuration(s)) == Ok(3600 * ((s % SecondsPerDay) / SecondsPerHour))
  {
    var f := DurationFields(s);
    assert f.second == (s % SecondsPerDay) / SecondsPerHour;
    ParseDaysHours(FormatDuration(s), f.first, f.second, 3600 * ((s % SecondsPerDay) / SecondsPerHour));
  }

  /* -------------------------------------------------------------- truncate */

  /** Python's `text[:n]`, where a negative `n` counts from the end. */
  function PrefixSlice(text: string, n: int): (r: string)
    ensures |r| <= |text| && r == text[..|r|]
    ensures 0 <= n <= |text| ==> |r| == n
    ensures n > |text| ==> r == text
    ensures n < 0 ==> |r| == if |text| + n > 0 then |text| + n else 0
  {
    if n >= 0 then (if n <= |text| then text[..n] else text)
    else if |text| + n > 0 then text[..|text| + n]
    else []
  }

  /** The position of the last `c` in `t`. */
  function LastIndex(t: string, c: char): (r: Option<nat>)
    ensures r.None? ==> forall i | 0 <= i < |t| :: t[i] != c
    ensures r.Some? ==> r.value < |t| && t[r.value] == c && forall i | r.value < i < |t| :: t[i] != c
  {
    if |t| == 0 then None
    else if t[|t| - 1] == c then Some(|t| - 1)
    else
      var r := LastIndex(t[..|t| - 1], c);
      assert forall i | 0 <= i < |t| - 1 :: t[..|t| - 1][i] == t[i];
      r
  }

  /** `t.rsplit(' ', 1)[0]`. */
  function BeforeLastSpace(t: string): (r: string)
    ensures |r| <= |t| && r == t[..|r|]
    ensures |r| == |t| ==> forall i | 0 <= i < |t| :: t[i] != ' '
    ensures |r| < |t| ==> t[|r|] == ' ' && forall i | |r| < i < |t| :: t[i] != ' '
  {
    match LastIndex(t, ' ')
    case None => t
    case Some(i) => t[..i]
  }

  const Ellipsis := "..."

  /** `truncate_text`. */
  function TruncateText(text: string, maxLength: int): (r: string)
    ensures |text| <= maxLength ==> r == text
    ensures |text| > maxLength ==>
      var kept := PrefixSlice(text, maxLength);
      var head := BeforeLastSpace(kept);
      && r == head + Ellipsis
      && head == text[..|head|]
      && (|head| == |kept| || (text[|head|] == ' ' && forall i | |head| < i < |kept| :: text[i] != ' '))
    ensures maxLength >= 0 ==> |r| <= maxLength + |Ellipsis|
  {
    if |text| <= maxLength then text
    else BeforeLastSpace(PrefixSlice(text, maxLength)) + Ellipsis
  }

  /** Text without blanks is cut exactly at the limit. */
  lemma NoBlankCutAtLimit(text: string, maxLength: nat)
    requires maxLength < |text|
    requires forall i | 0 <= i < |text| :: text[i] != ' '
    ensures TruncateText(text, maxLength) == text[..maxLength] + Ellipsis
  {
    var kept := PrefixSlice(text, maxLength);
    assert forall i | 0 <= i < |kept| :: kept[i] == text[i];
  }

  /* -------------------------------------------------------------- progress */

  const CompletedStatus := "completed"
  const InProgressStatus := "in_progress"

  datatype Progress = Progress(percentage: real, status: string, remaining: real)

  /** `current / target`, or 0 when the target is 0. */
  function Ratio(current: real, target: real): real {
    if target != 0.0 then current / target else 0.0
  }

  /** `calculate_progress`. */
  function CalculateProgress(current: real, target: real): (r: Progress)
    ensures r.percentage <= 100.0 && r.remaining >= 0.0
    ensures r.status == CompletedStatus <==> Ratio(current, target) >= 1.0
    ensures r.status == CompletedStatus || r.status == InProgressStatus
    // the remaining amount is the shortfall, never negative
    ensures current < target ==> r.remaining == target - current
    ensures current >= target ==> r.remaining == 0.0
    ensures target == 0.0 ==> r.percentage == 0.0 && r.status == InProgressStatus
  {
    var progress := Ratio(current, target);
    Progress(if progress * 100.0 <= 100.0 then progress * 100.0 else 100.0,
             if progress >= 1.0 then CompletedStatus else InProgressStatus,
             if target - current >= 0.0 then target - current else 0.0)
  }

  /** The percentage is capped at 100 exactly when the status is completed. */
  lemma FullIffCompleted(current: real, target: real)
    ensures CalculateProgress(current, target).percentage == 100.0
        <==> CalculateProgress(current, target).status == CompletedStatus
  {
  }

  /** With a positive target, completion means reaching it. */
  lemma CompletedIffReached(current: real, target: real)
    requires target > 0.0
    ensures CalculateProgress(current, target).status == CompletedStatus <==> current >= target
  {
    var q := current / target;
    assert q * target == current;
    if q >= 1.0 {
      assert (q - 1.0) * target >= 0.0;
    } else {
      assert (1.0 - q) * target > 0.0;
    }
  }

  /* ----------------------------------------------------------------- trend */

  const Rising := "\U{2191}"
  const Falling := "\U{2193}"
  const Steady := "\U{2192}"

  /** `get_trend_indicator`. */
  function GetTrendIndicator(current: real, previous: real): (r: string)
    ensures r == Rising <==> current > previous
    ensures r == Falling <==> current < previous
    ensures r == Steady <==> current == previous
  {
    if current > previous then Rising
    else if current < previous then Falling
    else Steady
  }

  /** Swapping the two values swaps the arrows. */
  lemma TrendReverses(a: real, b: real)
    ensures GetTrendIndicator(a, b) == Rising <==> GetTrendIndicator(b, a) == Falling
    ensures GetTrendIndicator(a, b) == Steady <==> GetTrendIndicator(b, a) == Steady
  {
  }
}

=== FILE: interview_analyzer.dfy ===
/**
 Experience-bounded scoring of one answer (`InterviewAnalyzer.analyze_response`).

 The model's JSON reply is not parsed here: the caller supplies either the
 sub-scores it contained (`Some(feedback)`) or `None` when calling the model,
 decoding the JSON or reading a field raised an exception.
 */
module InterviewAnalyzer {
  import opened Results

  /* ---------------------------------------------------------- lookup tables */

  /** One role-specific evaluation criterion and its weight. */
  datatype Criterion = Criterion(name: string, weight: real)

  function WeightSum(cs: seq<Criterion>): real {
    if |cs| == 0 then 0.0 else WeightSum(cs[..|cs| - 1]) + cs[|cs| - 1].weight
  }

  /** The criteria table of a role; a role without an entry gets the generic three criteria. */
  function RoleCriteria(role: string): (r: seq<Criterion>)
    ensures |r| == 3
    ensures r[0].weight == 0.4 && r[1].weight == 0.3 && r[2].weight == 0.3
  {
    if role == "Software Engineer" then
      [Criterion("technical_depth", 0.4), Criterion("problem_solving", 0.3), Criterion("best_practices", 0.3)]
    else if role == "Data Scientist" then
      [Criterion("analytical_thinking", 0.4), Criterion("technical_knowledge", 0.3),
       Criterion("research_methodology", 0.3)]
    else if role == "Functional Tester" then
      [Criterion("test_methodology", 0.4), Criterion("quality_mindset", 0.3),
       Criterion("technical_understanding", 0.3)]
    else
      GenericCriteria
  }

  const GenericCriteria: seq<Criterion> :=
    [Criterion("general_knowledge", 0.4), Criterion("communication", 0.3), Criterion("experience", 0.3)]

  lemma WeightSumOfThree(cs: seq<Criterion>)
    requires |cs| == 3
    ensures WeightSum(cs) == cs[0].weight + cs[1].weight + cs[2].weight
  {
    assert cs[..2][..1] == [cs[0]];
    assert WeightSum([cs[0]]) == cs[0].weight;
  }

  /** The criteria weights of every role, known or not, add up to one. */
  lemma RoleWeightsSumToOne(role: string)
    ensures WeightSum(RoleCriteria(role)) == 1.0
  {
    WeightSumOfThree(RoleCriteria(role));
  }

  /** What an experience level expects: the score around which results are bounded, and a scaling threshold. */
  datatype Expectation = Expectation(baseScore: real, threshold: real)

  const ExperienceLevels: seq<string> := ["0-2 years", "2-5 years", "5-8 years", "8+ years"]

  /** The expectation of a level; an unknown level is treated as "0-2 years". */
  function Expectations(level: string): (e: Expectation)
    ensures 6.0 <= e.baseScore <= 8.5 && 0.7 <= e.threshold <= 0.85
    // every level but the three above "0-2 years" gets the "0-2 years" entry
    ensures e == Expectation(6.0, 0.7) <==> level !in ExperienceLevels[1..]
  {
    if level == "2-5 years" then Expectation(7.0, 0.75)
    else if level == "5-8 years" then Expectation(8.0, 0.8)
    else if level == "8+ years" then Expectation(8.5, 0.85)
    else Expectation(6.0, 0.7)
  }

  /** Relative weights of content, technical score and experience alignment in the final score. */
  const ContentWeight: real := 0.5
  const TechnicalWeight: real := 0.3
  const AlignmentWeight: real := 0.2

  lemma PerformanceWeightsSumToOne()
    ensures ContentWeight + TechnicalWeight + AlignmentWeight == 1.0
  {
  }

  /** Both the base score and the threshold rise strictly with the experience level. */
  lemma ExpectationsIncrease(i: int, j: int)
    requires 0 <= i < j < |ExperienceLevels|
    ensures Expectations(ExperienceLevels[i]).baseScore < Expectations(ExperienceLevels[j]).baseScore
    ensures Expectations(ExperienceLevels[i]).threshold < Expectations(ExperienceLevels[j]).threshold
  {
  }

  /* ---------------------------------------------------------------- scoring */

  /** The numeric fields of the model's JSON reply. */
  datatype Feedback = Feedback(
    relevance: real, clarity: real, structure: real,
    knowledgeDepth: real, practicalUnderstanding: real, problemSolving: real,
    alignment: real, competencies: real, meetsExpectations: bool)

  /** The numeric part of what `analyze_response` returns. */
  datatype Analysis = Analysis(
    score: real,
    knowledgeDepth: real, practicalUnderstanding: real, problemSolving: real,
    alignment: real, competencies: real, meetsExpectations: bool)

  function Max(a: real, b: real): real { if a >= b then a else b }
  function Min(a: real, b: real): real { if a <= b then a else b }

  function RawContent(f: Feedback): real {
    0.4 * f.relevance + 0.3 * f.clarity + 0.3 * f.structure
  }

  /** The experience-level threshold adjustment of a raw content score. */
  function Adjusted(raw: real, e: Expectation): (r: real)
    requires 0.0 < e.threshold < 1.0 && e.baseScore > 2.0
    // never below base - 2
    ensures r >= e.baseScore - 2.0
    // a raw score at or above the base is kept; one below it stays below it
    ensures raw >= e.baseScore ==> r == raw
    ensures raw < e.baseScore ==> r < e.baseScore && r >= raw * e.threshold
    // below the base the score is scaled by the threshold, but not below base - 2
    ensures raw < e.baseScore ==> r == Max(raw * e.threshold, e.baseScore - 2.0)
  {
    if raw < e.baseScore then
      BelowStaysBelow(raw, e.threshold, e.baseScore);
      Max(raw * e.threshold, e.baseScore - 2.0)
    else raw
  }

  function ContentScore(f: Feedback, e: Expectation): real
    requires 0.0 < e.threshold < 1.0 && e.baseScore > 2.0
  {
    Adjusted(RawContent(f), e)
  }

  lemma BelowStaysBelow(raw: real, t: real, base: real)
    requires 0.0 < t < 1.0 && base > 0.0 && raw < base
    ensures raw * t < base
  {
    if raw >= 0.0 {
      assert raw * t <= raw * 1.0;
    } else {
      assert raw * t < 0.0;
    }
  }

  function TechScore(f: Feedback): real {
    0.4 * f.knowledgeDepth + 0.3 * f.practicalUnderstanding + 0.3 * f.problemSolving
  }

  /** The weighted sum of the content, technical and alignment scores. */
  function Weighted(f: Feedback, e: Expectation): real
    requires 0.0 < e.threshold < 1.0 && e.baseScore > 2.0
  {
    ContentScore(f, e) * ContentWeight + TechScore(f) * TechnicalWeight + f.alignment * AlignmentWeight
  }

  /** The weighted final score, scaled by the threshold, before bounding. */
  function RawFinal(f: Feedback, e: Expectation): real
    requires 0.0 < e.threshold < 1.0 && e.baseScore > 2.0
  {
    Weighted(f, e) * e.threshold
  }

  /** `min(x, hi)` followed by `max(_, lo)`. */
  function Bound(x: real, lo: real, hi: real): (r: real)
    requires lo <= hi
    ensures lo <= r <= hi
    ensures lo <= x <= hi ==> r == x
    ensures x < lo ==> r == lo
    ensures x > hi ==> r == hi
  {
    Max(Min(x, hi), lo)
  }

  function Lowest(e: Expectation): real { e.baseScore - 2.0 }
  function Highest(e: Expectation): real { e.baseScore + 1.5 }

  /** `analyze_response` from the point where the model's reply is available, before rounding. */
  function AnalyzeResponse(level: string, feedback: Option<Feedback>): (a: Analysis)
    // the score always lies in [base - 2.0, base + 1.5]
    ensures var e := Expectations(level); Lowest(e) <= a.score <= Highest(e)
    // on the error path every numeric field is base - 2.0 and expectations are not met
    ensures feedback.None? ==>
      var low := Lowest(Expectations(level));
      a == Analysis(low, low, low, low, low, low, false)
    // on success the model's sub-scores are passed through unchanged
    ensures feedback.Some? ==>
      var f := feedback.value;
      && a.knowledgeDepth == f.knowledgeDepth && a.practicalUnderstanding == f.practicalUnderstanding
      && a.problemSolving == f.problemSolving && a.alignment == f.alignment
      && a.competencies == f.competencies && a.meetsExpectations == f.meetsExpectations
    // on success the score is the threshold-scaled weighted sum, clamped to the experience bounds
    ensures feedback.Some? ==>
      var e := Expectations(level);
      a.score == Bound(RawFinal(feedback.value, e), Lowest(e), Highest(e))
  {
    var e := Expectations(level);
    match feedback
    case None =>
      var low := Lowest(e);
      Analysis(low, low, low, low, low, low, false)
    case Some(f) =>
      Analysis(Bound(RawFinal(f, e), Lowest(e), Highest(e)),
               f.knowledgeDepth, f.practicalUnderstanding, f.problemSolving,
               f.alignment, f.competencies, f.meetsExpectations)
  }

  /* ------------------------------------------------------------- properties */

  /** The error path yields the lowest score the success path can yield. */
  lemma ErrorScoreIsLowest(level: string, f: Feedback)
    ensures AnalyzeResponse(level, None).score <= AnalyzeResponse(level, Some(f)).score
  {
  }

  /** Every sub-score of `f` is at most the matching sub-score of `g`. */
  predicate Dominated(f: Feedback, g: Feedback) {
    && f.relevance <= g.relevance && f.clarity <= g.clarity && f.structure <= g.structure
    && f.knowledgeDepth <= g.knowledgeDepth && f.practicalUnderstanding <= g.practicalUnderstanding
    && f.problemSolving <= g.problemSolving && f.alignment <= g.alignment
  }

  lemma ScaleMonotone(a: real, b: real, k: real)
    requires a <= b && k >= 0.0
    ensures a * k <= b * k
  {
    assert (b - a) * k >= 0.0;
  }

  /** The adjustment never reverses the order of two raw content scores. */
  lemma AdjustedMonotone(a: real, b: real, e: Expectation)
    requires 0.0 < e.threshold < 1.0 && e.baseScore > 2.0
    requires a <= b
    ensures Adjusted(a, e) <= Adjusted(b, e)
  {
    var lo := e.baseScore - 2.0;
    if b < e.baseScore {
      var x, y := a * e.threshold, b * e.threshold;
      ScaleMonotone(a, b, e.threshold);
      assert x <= y;
      assert Adjusted(a, e) == Max(x, lo) && Adjusted(b, e) == Max(y, lo);
      assert Max(x, lo) <= Max(y, lo);
    } else if a < e.baseScore {
      assert Adjusted(a, e) < e.baseScore <= b == Adjusted(b, e);
    } else {
      assert Adjusted(a, e) == a && Adjusted(b, e) == b;
    }
  }

  /** Better sub-scores never lower the weighted sum. */
  lemma WeightedMonotone(f: Feedback, g: Feedback, e: Expectation)
    requires 0.0 < e.threshold < 1.0 && e.baseScore > 2.0
    requires Dominated(f, g)
    ensures Weighted(f, e) <= Weighted(g, e)
  {
    AdjustedMonotone(RawContent(f), RawContent(g), e);
    assert TechScore(f) <= TechScore(g);
  }

  /** Better sub-scores never lower the score before bounding. */
  lemma RawFinalMonotone(f: Feedback, g: Feedback, e: Expectation)
    requires 0.0 < e.threshold < 1.0 && e.baseScore > 2.0
    requires Dominated(f, g)
    ensures RawFinal(f, e) <= RawFinal(g, e)
  {
    WeightedMonotone(f, g, e);
    ScaleMonotone(Weighted(f, e), Weighted(g, e), e.threshold);
  }

  /** Clamping keeps the order of its arguments. */
  lemma BoundMonotone(x: real, y: real, lo: real, hi: real)
    requires lo <= hi && x <= y
    ensures Bound(x, lo, hi) <= Bound(y, lo, hi)
  {
  }

  /** For a fixed expectation, better sub-scores never lower the bounded score. */
  lemma FinalMonotone(f: Feedback, g: Feedback, e: Expectation)
    requires 0.0 < e.threshold < 1.0 && e.baseScore > 2.0
    requires Dominated(f, g)
    ensures Bound(RawFinal(f, e), Lowest(e), Highest(e)) <= Bound(RawFinal(g, e), Lowest(e), Highest(e))
  {
    RawFinalMonotone(f, g, e);
    BoundMonotone(RawFinal(f, e), RawFinal(g, e), Lowest(e), Highest(e));
  }

  /** Better sub-scores never lower the score. */
  lemma ScoreMonotone(level: string, f: Feedback, g: Feedback)
    requires Dominated(f, g)
    ensures AnalyzeResponse(level, Some(f)).score <= AnalyzeResponse(level, Some(g)).score
  {
    FinalMonotone(f, g, Expectations(level));
  }

  /** Every content, technical and alignment sub-score of `f` is `v`. */
  predicate Uniform(f: Feedback, v: real) {
    && f.relevance == v && f.clarity == v && f.structure == v
    && f.knowledgeDepth == v && f.practicalUnderstanding == v && f.problemSolving == v
    && f.alignment == v
  }

  /** Since all weights sum to one, a reply whose sub-scores are all `v` weighs to `v`. */
  lemma UniformWeighted(f: Feedback, v: real, e: Expectation)
    requires 0.0 < e.threshold < 1.0 && e.baseScore > 2.0
    requires Uniform(f, v) && v >= e.baseScore
    ensures Weighted(f, e) == v
  {
    assert RawContent(f) == v;
    assert TechScore(f) == v;
    PerformanceWeightsSumToOne();
    assert v * ContentWeight + v * TechnicalWeight + v * AlignmentWeight == v * (ContentWeight + TechnicalWeight + AlignmentWeight);
  }

  /**
   An answer rated `v` on every sub-score, at or above the level's base score, scores
   `v` scaled by the level's threshold, clamped to the level's bounds.
   */
  lemma UniformScore(level: string, f: Feedback, v: real)
    requires Uniform(f, v) && v >= Expectations(level).baseScore
    ensures var e := Expectations(level);
      AnalyzeResponse(level, Some(f)).score == Bound(v * e.threshold, Lowest(e), Highest(e))
  {
    UniformFinal(f, v, Expectations(level));
  }

  lemma UniformFinal(f: Feedback, v: real, e: Expectation)
    requires 0.0 < e.threshold < 1.0 && e.baseScore > 2.0
    requires Uniform(f, v) && v >= e.baseScore
    ensures Bound(RawFinal(f, e), Lowest(e), Highest(e)) == Bound(v * e.threshold, Lowest(e), Highest(e))
  {
    UniformWeighted(f, v, e);
  }
}

=== FILE: interview_controller.dfy ===
/**
 The interview flow: starting an interview and processing one answer, as
 functions from a session to the next session.

 The model's replies are an oracle (`replies(k)` is what attempt `k` of the
 request yields), the regex engine is the `scan` oracle of the metrics
 calculator, the input validator the controller calls is the predicate
 `isValid`, and the clock reading and the history timestamp are parameters.
 */
module InterviewController {
  import opened Results
  import opened Text
  import opened Transcript
  import opened ScoreExtraction
  import opened MetricsCalculator
  import opened AiService
  import opened SessionManager

  /* ------------------------------------------------------------ focus points */

  /** The `INTERVIEW_FOCUS` table: interview type to its `primary` and `secondary` focus. */
  type FocusTable = map<string, map<string, string>>

  function Entry(m: map<string, string>, key: string): string {
    if key in m then m[key] else ""
  }

  const FocusSeparator := ", "

  /** `get_focus_points`: the primary and secondary focus joined by a comma, blank when missing. */
  function GetFocusPoints(focus: FocusTable, interviewType: string): (r: string)
    ensures interviewType !in focus ==> r == FocusSeparator
    ensures interviewType in focus ==>
      r == Entry(focus[interviewType], "primary") + FocusSeparator + Entry(focus[interviewType], "secondary")
  {
    var entry := if interviewType in focus then focus[interviewType] else map[];
    Entry(entry, "primary") + FocusSeparator + Entry(entry, "secondary")
  }

  /** When the primary focus has no ", " in it, splitting the focus line once recovers both parts. */
  lemma FocusPointsSplitBack(focus: FocusTable, interviewType: string)
    requires interviewType in focus
    requires !Contains(Entry(focus[interviewType], "primary"), FocusSeparator)
    ensures SplitOnce(GetFocusPoints(focus, interviewType), FocusSeparator)
         == Split(Entry(focus[interviewType], "primary"), Some(Entry(focus[interviewType], "secondary")))
  {
    JoinSplitsBack(Entry(focus[interviewType], "primary"), Entry(focus[interviewType], "secondary"));
  }

  lemma JoinSplitsBack(a: string, b: string)
    requires !Contains(a, FocusSeparator)
    ensures SplitOnce(a + FocusSeparator + b, FocusSeparator) == Split(a, Some(b))
  {
    var s := a + FocusSeparator + b;
    assert s[|a|..|a| + 2] == FocusSeparator;
    forall j | 0 <= j < |a| ensures !OccursAt(s, FocusSeparator, j) {
      if j + 2 <= |a| {
        assert s[j..j + 2] == a[j..j + 2];
        assert !OccursAt(a, FocusSeparator, j);
      } else {
        assert s[j + 1] == ',';
      }
    }
    assert FirstOccurrence(s, FocusSeparator, |a|);
    assert s[..|a|] == a && s[|a| + 2..] == b;
  }

  /* --------------------------------------------------------- fallback scores */

  /** The progressive base score used when nothing could be extracted. */
  function FallbackBase(totalQuestions: nat): (b: real)
    ensures 6.5 <= b <= 8.5
    // from the fourth question on the cap is reached
    ensures totalQuestions >= 4 <==> b == 8.5
    // below the cap it grows by 0.5 per recorded question: 6.5, 7.0, 7.5, 8.0
    ensures totalQuestions < 4 ==> b == 6.5 + 0.5 * totalQuestions as real
  {
    var questionCount := totalQuestions + 1;
    var raw := 6.0 + questionCount as real * 0.5;
    if raw <= 8.5 then raw else 8.5
  }

  /** The base score never decreases as questions accumulate. */
  lemma FallbackBaseMonotone(a: nat, b: nat)
    requires a <= b
    ensures FallbackBase(a) <= FallbackBase(b)
  {
  }

  /** The metrics used instead of an all-zero result. */
  function FallbackMetrics(totalQuestions: nat): (m: RoleMetrics)
    ensures var base := FallbackBase(totalQuestions);
      && m.domainKnowledge == base && m.overallScore == base
      && m.methodologyUnderstanding == base - 0.2 && m.practicalExperience == base - 0.1
    ensures m != ZeroMetrics
  {
    var base := FallbackBase(totalQuestions);
    RoleMetrics(base, base - 0.2, base - 0.1, base)
  }

  /** Computed metrics are replaced only when every field of them is 0.0. */
  function ChooseMetrics(computed: RoleMetrics, totalQuestions: nat): (m: RoleMetrics)
    ensures computed == ZeroMetrics ==> m == FallbackMetrics(totalQuestions)
    ensures computed != ZeroMetrics ==> m == computed
    ensures m != ZeroMetrics
  {
    if && computed.domainKnowledge == 0.0 && computed.methodologyUnderstanding == 0.0
       && computed.practicalExperience == 0.0 && computed.overallScore == 0.0
    then FallbackMetrics(totalQuestions)
    else computed
  }

  /** The fallback applies exactly when no score could be read from any assessment of the transcript. */
  lemma FallbackIffNothingParsed(messages: seq<Message>, scan: string -> Scan, totalQuestions: nat)
    ensures ChooseMetrics(CalculateRoleSpecificMetrics(messages, scan), totalQuestions)
         == if NothingParsed(messages, scan) then FallbackMetrics(totalQuestions)
            else CalculateRoleSpecificMetrics(messages, scan)
  {
  }

  /** Whatever branch is taken, the stored overall score lies in [1, 10]. */
  lemma ChosenOverallInRange(messages: seq<Message>, scan: string -> Scan, totalQuestions: nat)
    ensures 1.0 <= ChooseMetrics(CalculateRoleSpecificMetrics(messages, scan), totalQuestions).overallScore <= 10.0
  {
  }

  /* -------------------------------------------------------- start_interview */

  /** The question card a reply to the question prompt becomes. */
  function QuestionCard(reply: string): (m: Message)
    ensures IsQuestion(m) && m.content.Card?
  {
    var q := ParseQuestionReply(reply);
    Message(Assistant, Question, Card(q.question, q.expectedAnswer))
  }

  /** `start_interview`: on success one question card is appended and the interview is marked started. */
  function StartInterviewTurn(s: Session, replies: nat -> ModelReply): (r: Session)
    ensures GenerateContent(replies).result.Returned? ==>
      && r.messages == s.messages + [QuestionCard(GenerateContent(replies).result.text)]
      && r.started
      && r.(messages := s.messages, started := s.started) == s
    // when the request raises, neither happens
    ensures !GenerateContent(replies).result.Returned? ==> r == s
  {
    match GenerateContent(replies).result
    case Returned(text) => StartInterview(AddMessage(s, QuestionCard(text)))
    case _ => s
  }

  /** After a successful start, the question just generated is the last question. */
  lemma StartedQuestionIsLast(s: Session, replies: nat -> ModelReply)
    requires GenerateContent(replies).result.Returned?
    ensures GetLastQuestion(StartInterviewTurn(s, replies).messages)
         == QuestionCard(GenerateContent(replies).result.text).content
  {
    LastQuestionAfterAdd(s.messages, QuestionCard(GenerateContent(replies).result.text));
  }

  /* --------------------------------------------------- process_user_response */

  /** The interview settings and the history timestamp of one turn. */
  datatype Turn = Turn(role: string, experience: string, interviewType: string, difficulty: string, timestamp: string)

  datatype TurnResult = TurnResult(ok: bool, session: Session)

  /** The state every exit leaves behind: the `finally` clause clears the processing state. */
  function Finish(ok: bool, s: Session): (r: TurnResult)
    ensures r.ok == ok && !r.session.processing && r.session.currentResponse == ""
    ensures r.session.(processing := s.processing, currentResponse := s.currentResponse) == s
  {
    TurnResult(ok, SetProcessingState(s, false, ""))
  }

  /** The two assistant messages and the history entry produced from an evaluation reply. */
  function AssessmentMessage(e: Evaluation): Message {
    Message(Assistant, Assessment, Text(e.assessment))
  }

  function FollowUpMessage(e: Evaluation): (m: Message)
    ensures IsQuestion(m)
  {
    Message(Assistant, Question, Card(e.followUpQuestion, e.followUpExpected))
  }

  /** Everything after the evaluation reply arrived: two appends, one history entry, the stats update. */
  function RecordTurn(s: Session, input: string, previous: string, e: Evaluation, t: Turn,
                      scan: string -> Scan): (r: Session)
    ensures r.messages == s.messages + [AssessmentMessage(e), FollowUpMessage(e)]
    ensures r.history == s.history + [HistoryEntry(t.timestamp, t.role, t.experience, t.interviewType,
                                                   previous, input, e.assessment)]
    ensures r.stats.totalQuestions == s.stats.totalQuestions + 1
    ensures r.stats.roleMetrics
         == Some(ChooseMetrics(CalculateRoleSpecificMetrics(r.messages, scan), s.stats.totalQuestions))
    ensures r.(messages := s.messages, history := s.history, stats := s.stats) == s
  {
    var s3 := AddMessage(s, AssessmentMessage(e));
    var s4 := AddMessage(s3, FollowUpMessage(e));
    var s5 := AddInterviewHistory(s4, HistoryEntry(t.timestamp, t.role, t.experience, t.interviewType,
                                                   previous, input, e.assessment));
    var metrics := CalculateRoleSpecificMetrics(s5.messages, scan);
    UpdateSessionStats(s5, ChooseMetrics(metrics, s5.stats.totalQuestions))
  }

  /** The user's answer as it is recorded in the transcript. */
  function AnswerMessage(input: string): Message {
    Message(User, Plain, Text(input))
  }

  /** The previous question reaches the evaluation prompt only as a card; plain text content raises. */
  predicate LastQuestionIsCard(s: Session) {
    GetLastQuestion(s.messages).Card?
  }

  /** The turn from the point where the answer is in the transcript and the evaluation request has ended. */
  function Evaluated(s: Session, input: string, t: Turn, call: CallResult, scan: string -> Scan): (r: TurnResult)
    ensures r.ok <==> LastQuestionIsCard(s) && call.Returned?
    ensures !r.ok ==> r == Finish(false, s)
    ensures r.ok ==>
      var e := ParseEvaluationReply(call.text);
      && r.session.messages == s.messages + [AssessmentMessage(e), FollowUpMessage(e)]
      && r.session.history == s.history + [HistoryEntry(t.timestamp, t.role, t.experience, t.interviewType,
                                                        GetLastQuestion(s.messages).question, input, e.assessment)]
      && r.session.stats.totalQuestions == s.stats.totalQuestions + 1
      && r.session.requestCount == s.requestCount && r.session.lastRequestTime == s.lastRequestTime
      && !r.session.processing && r.session.currentResponse == ""
      && r.session.stats.roleMetrics
         == Some(ChooseMetrics(CalculateRoleSpecificMetrics(r.session.messages, scan), s.stats.totalQuestions))
  {
    match GetLastQuestion(s.messages)
    case Text(_) => Finish(false, s)
    case Card(previous, _) =>
      match call
      case Returned(reply) => Finish(true, RecordTurn(s, input, previous, ParseEvaluationReply(reply), t, scan))
      case _ => Finish(false, s)
  }

  /** The state once the answer passed validation and the rate limit: processing, with the answer appended. */
  function Answered(s: Session, input: string, now: real): (r: Session)
    requires now - s.lastRequestTime >= MinInterval
    ensures r.messages == s.messages + [AnswerMessage(input)]
    ensures GetLastQuestion(r.messages) == GetLastQuestion(s.messages)
    ensures r.history == s.history && r.stats == s.stats
    ensures r.requestCount == s.requestCount + 1 && r.lastRequestTime == now
  {
    var s1 := SetProcessingState(CheckRateLimit(s, now).session, true, input);
    LastQuestionAfterAdd(s1.messages, AnswerMessage(input));
    AddMessage(s1, AnswerMessage(input))
  }

  /** `process_user_response`. */
  function ProcessUserResponse(s: Session, input: string, t: Turn, isValid: string -> bool, now: real,
                               replies: nat -> ModelReply, scan: string -> Scan): (r: TurnResult)
    // every exit leaves the processing state cleared
    ensures !r.session.processing && r.session.currentResponse == ""
    // invalid input or a rate-limited request: nothing but the processing state changes
    ensures !isValid(input) ==> r == Finish(false, s)
    ensures isValid(input) && now - s.lastRequestTime < MinInterval ==> r == Finish(false, s)
    // otherwise the answer is recorded and the evaluation decides the rest
    ensures isValid(input) && now - s.lastRequestTime >= MinInterval ==>
      r == Evaluated(Answered(s, input, now), input, t, GenerateContent(replies).result, scan)
  {
    if !isValid(input) then Finish(false, s)
    else
      var rate := CheckRateLimit(s, now);
      if !rate.allowed then Finish(false, rate.session)
      else Evaluated(Answered(s, input, now), input, t, GenerateContent(replies).result, scan)
  }

  /** Success exactly when validation, the rate limit, the last question and the model call all pass. */
  lemma TurnSucceedsIff(s: Session, input: string, t: Turn, isValid: string -> bool, now: real,
                        replies: nat -> ModelReply, scan: string -> Scan)
    ensures ProcessUserResponse(s, input, t, isValid, now, replies, scan).ok <==>
      && isValid(input) && now - s.lastRequestTime >= MinInterval
      && LastQuestionIsCard(s) && GenerateContent(replies).result.Returned?
  {
  }

  /** A successful turn appends the answer, the assessment and the follow-up question, in that order, then one history entry, then counts one question. */
  lemma SuccessfulTurnShape(s: Session, input: string, t: Turn, isValid: string -> bool, now: real,
                            replies: nat -> ModelReply, scan: string -> Scan)
    requires ProcessUserResponse(s, input, t, isValid, now, replies, scan).ok
    ensures var r := ProcessUserResponse(s, input, t, isValid, now, replies, scan).session;
      var e := ParseEvaluationReply(GenerateContent(replies).result.text);
      && r.messages == s.messages + [AnswerMessage(input), AssessmentMessage(e), FollowUpMessage(e)]
      && r.history == s.history + [HistoryEntry(t.timestamp, t.role, t.experience, t.interviewType,
                                                GetLastQuestion(s.messages).question, input, e.assessment)]
      && r.stats.totalQuestions == s.stats.totalQuestions + 1
      && r.requestCount == s.requestCount + 1 && r.lastRequestTime == now
      && r.stats.roleMetrics
         == Some(ChooseMetrics(CalculateRoleSpecificMetrics(r.messages, scan), s.stats.totalQuestions))
  {
    TurnSucceedsIff(s, input, t, isValid, now, replies, scan);
    AnsweredThenEvaluated(s, input, t, now, GenerateContent(replies).result, scan);
  }

  lemma AnsweredThenEvaluated(s: Session, input: string, t: Turn, now: real, call: CallResult, scan: string -> Scan)
    requires now - s.lastRequestTime >= MinInterval
    requires Evaluated(Answered(s, input, now), input, t, call, scan).ok
    ensures var r := Evaluated(Answered(s, input, now), input, t, call, scan).session;
      var e := ParseEvaluationReply(call.text);
      && r.messages == s.messages + [AnswerMessage(input), AssessmentMessage(e), FollowUpMessage(e)]
      && r.history == s.history + [HistoryEntry(t.timestamp, t.role, t.experience, t.interviewType,
                                                GetLastQuestion(s.messages).question, input, e.assessment)]
      && r.stats.totalQuestions == s.stats.totalQuestions + 1
      && r.requestCount == s.requestCount + 1 && r.lastRequestTime == now
      && r.stats.roleMetrics
         == Some(ChooseMetrics(CalculateRoleSpecificMetrics(r.messages, scan), s.stats.totalQuestions))
  {
    var a := Answered(s, input, now);
    var r := Evaluated(a, input, t, call, scan);
    assert a.stats == s.stats && a.requestCount == s.requestCount + 1 && a.lastRequestTime == now;
    assert r.session.stats.totalQuestions == a.stats.totalQuestions + 1;
    assert r.session.requestCount == a.requestCount && r.session.lastRequestTime == a.lastRequestTime;
    assert a.stats.totalQuestions == s.stats.totalQuestions;
    var e := ParseEvaluationReply(call.text);
    AppendThree(s.messages, AnswerMessage(input), AssessmentMessage(e), FollowUpMessage(e));
  }

  lemma AppendThree<T>(xs: seq<T>, a: T, b: T, c: T)
    ensures xs + [a] + [b, c] == xs + [a, b, c]
  {
  }

  lemma AppendTwoThenOne<T>(xs: seq<T>, a: T, b: T, c: T)
    ensures xs + [a, b, c] == (xs + [a, b]) + [c]
  {
  }

  /** A failed turn leaves history and stats alone, and adds at most the answer itself. */
  lemma FailedTurnShape(s: Session, input: string, t: Turn, isValid: string -> bool, now: real,
                        replies: nat -> ModelReply, scan: string -> Scan)
    requires !ProcessUserResponse(s, input, t, isValid, now, replies, scan).ok
    ensures var r := ProcessUserResponse(s, input, t, isValid, now, replies, scan).session;
      && r.history == s.history && r.stats == s.stats
      && (r.messages == s.messages || r.messages == s.messages + [AnswerMessage(input)])
  {
  }

  /** A successful turn always stores role metrics, never all zeros, with an overall score in [1, 10]. */
  lemma SuccessfulTurnStoresMetrics(s: Session, input: string, t: Turn, isValid: string -> bool, now: real,
                                    replies: nat -> ModelReply, scan: string -> Scan)
    requires ProcessUserResponse(s, input, t, isValid, now, replies, scan).ok
    ensures var m := ProcessUserResponse(s, input, t, isValid, now, replies, scan).session.stats.roleMetrics;
      && m.Some? && m.value != ZeroMetrics && 1.0 <= m.value.overallScore <= 10.0
  {
    var r := ProcessUserResponse(s, input, t, isValid, now, replies, scan).session;
    SuccessfulTurnShape(s, input, t, isValid, now, replies, scan);
    ChosenOverallInRange(r.messages, scan, s.stats.totalQuestions);
  }

  /** `handle_user_input`: a duplicate, empty or concurrent submission is ignored outright. */
  function HandleUserInput(s: Session, input: string, t: Turn, isValid: string -> bool, now: real,
                           replies: nat -> ModelReply, scan: string -> Scan): (r: TurnResult)
    ensures !ShouldProcessInput(s, input) ==> r == TurnResult(false, s)
    ensures ShouldProcessInput(s, input) ==> r == ProcessUserResponse(s, input, t, isValid, now, replies, scan)
  {
    if !ShouldProcessInput(s, input) then TurnResult(false, s)
    else ProcessUserResponse(s, input, t, isValid, now, replies, scan)
  }

  /** After a successful turn the follow-up question is the one the next answer is evaluated against. */
  lemma FollowUpBecomesLastQuestion(s: Session, input: string, t: Turn, isValid: string -> bool, now: real,
                                    replies: nat -> ModelReply, scan: string -> Scan)
    requires ProcessUserResponse(s, input, t, isValid, now, replies, scan).ok
    ensures var e := ParseEvaluationReply(GenerateContent(replies).result.text);
      GetLastQuestion(ProcessUserResponse(s, input, t, isValid, now, replies, scan).session.messages)
        == Card(e.followUpQuestion, e.followUpExpected)
  {
    var e := ParseEvaluationReply(GenerateContent(replies).result.text);
    SuccessfulTurnShape(s, input, t, isValid, now, replies, scan);
    var ms := s.messages + [AnswerMessage(input), AssessmentMessage(e)];
    AppendTwoThenOne(s.messages, AnswerMessage(input), AssessmentMessage(e), FollowUpMessage(e));
    LastQuestionAfterAdd(ms, FollowUpMessage(e));
  }

  /** A second submission of the answer being processed is ignored and leaves the session as it is. */
  lemma ResubmissionIgnored(s: Session, input: string, t: Turn, isValid: string -> bool, now: real,
                            replies: nat -> ModelReply, scan: string -> Scan)
    ensures HandleUserInput(SetProcessingState(s, true, input), input, t, isValid, now, replies, scan)
         == TurnResult(false, SetProcessingState(s, true, input))
  {
  }
}

=== FILE: metrics_calculator.dfy ===
/**
 Folding the whole transcript into the four role metrics
 (`calculate_role_specific_metrics`).

 Every assistant message of type assessment is run through the score
 extractor; its technical and communication sub-scores are averaged per
 assessment, and the per-assessment values are then averaged per group.
 */
module MetricsCalculator {
  import opened Results
  import opened Transcript
  import opened ScoreExtraction

  const TechnicalGroup: seq<Category> := [KnowledgeDepth, Implementation, BestPractices]
  const CommunicationGroup: seq<Category> := [Clarity, Structure, Professionalism]

  /** Average used for a group without samples when some other group has samples. */
  const GroupFallback: real := 6.0

  function Sum(xs: seq<real>): real {
    if |xs| == 0 then 0.0 else Sum(xs[..|xs| - 1]) + xs[|xs| - 1]
  }

  /** `sum(xs) / len(xs)`. */
  function Mean(xs: seq<real>): real
    requires |xs| > 0
  {
    Sum(xs) / (|xs| as real)
  }

  predicate AllInScoreRange(xs: seq<real>) {
    forall i | 0 <= i < |xs| :: InScoreRange(xs[i])
  }

  lemma {:induction false} SumBounds(xs: seq<real>)
    requires AllInScoreRange(xs)
    ensures |xs| as real <= Sum(xs) <= 10.0 * |xs| as real
  {
    if |xs| > 0 {
      SumBounds(xs[..|xs| - 1]);
    }
  }

  /** The mean of scores in [1,10] is itself in [1,10]. */
  lemma MeanInScoreRange(xs: seq<real>)
    requires |xs| > 0 && AllInScoreRange(xs)
    ensures InScoreRange(Mean(xs))
  {
    SumBounds(xs);
    var n := |xs| as real;
    var q := Sum(xs) / n;
    assert q * n == Sum(xs);
    ScaleBack(q - 1.0, n);
    ScaleBack(10.0 - q, n);
  }

  /** A product with a positive factor has the sign of the other factor. */
  lemma ScaleBack(a: real, n: real)
    requires n > 0.0 && a * n >= 0.0
    ensures a >= 0.0
  {
  }

  lemma MeanIfAny(xs: seq<real>)
    requires AllInScoreRange(xs)
    ensures |xs| > 0 ==> InScoreRange(Mean(xs))
  {
    if |xs| > 0 {
      MeanInScoreRange(xs);
    }
  }

  /** Every category belongs to one of the three groups, so a non-empty score set has a sample. */
  lemma SomeGroupPresent(scores: ScoreSet)
    requires scores != map[]
    ensures |Present(scores, TechnicalGroup)| > 0 || |Present(scores, CommunicationGroup)| > 0
         || ExperienceMatch in scores
  {
    var c :| c in scores;
    assert c in TechnicalGroup || c in CommunicationGroup || c == ExperienceMatch;
  }

  /** The values `scores` holds for the categories of `group`, in group order. */
  function Present(scores: ScoreSet, group: seq<Category>): (r: seq<real>)
    ensures |r| <= |group|
    ensures (forall c | c in scores :: InScoreRange(scores[c])) ==> AllInScoreRange(r)
    ensures |r| == 0 <==> forall c | c in group :: c !in scores
  {
    if |group| == 0 then []
    else
      var rest := Present(scores, group[..|group| - 1]);
      var c := group[|group| - 1];
      assert forall d | d in group :: d in group[..|group| - 1] || d == c;
      if c in scores then rest + [scores[c]] else rest
  }

  /** The samples collected so far, one list per group. */
  datatype Samples = Samples(technical: seq<real>, communication: seq<real>, experience: seq<real>)

  const NoSamples := Samples([], [], [])

  predicate SamplesInRange(s: Samples) {
    AllInScoreRange(s.technical) && AllInScoreRange(s.communication) && AllInScoreRange(s.experience)
  }

  predicate IsAssessment(m: Message) {
    m.role == Assistant && m.kind == Assessment
  }

  /** The sub-scores the extractor finds in the content of a message. */
  function Extracted(m: Message, scan: string -> Scan): ScoreSet {
    ExtractScores(scan(TextOf(m.content)))
  }

  /** What one assessment adds: its technical mean, its communication mean, its experience match. */
  function AssessmentSamples(scores: ScoreSet): (r: Samples)
    requires forall c | c in scores :: InScoreRange(scores[c])
    ensures SamplesInRange(r)
    ensures r == NoSamples <==> scores == map[]
  {
    if scores == map[] then NoSamples
    else
      var tech := Present(scores, TechnicalGroup);
      var comm := Present(scores, CommunicationGroup);
      var r := Samples(
        if |tech| > 0 then [Mean(tech)] else [],
        if |comm| > 0 then [Mean(comm)] else [],
        if ExperienceMatch in scores then [scores[ExperienceMatch]] else []);
      SomeGroupPresent(scores);
      MeanIfAny(tech);
      MeanIfAny(comm);
      r
  }

  function Append(a: Samples, b: Samples): Samples {
    Samples(a.technical + b.technical, a.communication + b.communication, a.experience + b.experience)
  }

  /** The samples of every assessment in the transcript, in transcript order. */
  function CollectSamples(messages: seq<Message>, scan: string -> Scan): (r: Samples)
    ensures SamplesInRange(r)
  {
    if |messages| == 0 then NoSamples
    else
      Append(CollectSamples(messages[..|messages| - 1], scan), Added(messages[|messages| - 1], scan))
  }

  /** `m` is an assessment in which the extractor finds at least one sub-score. */
  predicate Parsed(m: Message, scan: string -> Scan) {
    IsAssessment(m) && Extracted(m, scan) != map[]
  }

  /** No assessment yields a sub-score. */
  predicate NothingParsed(messages: seq<Message>, scan: string -> Scan) {
    forall i | 0 <= i < |messages| :: !Parsed(messages[i], scan)
  }

  /** What the last message of a transcript adds to the collection. */
  function Added(m: Message, scan: string -> Scan): (r: Samples)
    ensures SamplesInRange(r)
    ensures r == NoSamples <==> !Parsed(m, scan)
  {
    if IsAssessment(m) then AssessmentSamples(Extracted(m, scan)) else NoSamples
  }

  lemma AppendEmpty(a: Samples, b: Samples)
    ensures Append(a, b) == NoSamples <==> a == NoSamples && b == NoSamples
  {
  }

  /** No element of `xs` satisfies `p` iff none of its prefix `init` does and its last element does not. */
  lemma NoneSnoc<T>(xs: seq<T>, init: seq<T>, p: T -> bool)
    requires |xs| > 0 && init == xs[..|xs| - 1]
    ensures (forall i | 0 <= i < |xs| :: !p(xs[i])) <==>
      (forall i | 0 <= i < |init| :: !p(init[i])) && !p(xs[|xs| - 1])
  {
    assert forall i | 0 <= i < |init| :: init[i] == xs[i];
  }

  lemma NothingParsedSnoc(messages: seq<Message>, scan: string -> Scan)
    requires |messages| > 0
    ensures NothingParsed(messages, scan) <==>
      NothingParsed(messages[..|messages| - 1], scan) && !Parsed(messages[|messages| - 1], scan)
  {
    NoneSnoc(messages, messages[..|messages| - 1], m => Parsed(m, scan));
  }

  /** The collection is empty exactly when no assessment yields a sub-score. */
  lemma {:induction false} CollectEmptyIff(messages: seq<Message>, scan: string -> Scan)
    ensures CollectSamples(messages, scan) == NoSamples <==> NothingParsed(messages, scan)
  {
    if |messages| > 0 {
      var init := messages[..|messages| - 1];
      var m := messages[|messages| - 1];
      CollectEmptyIff(init, scan);
      AppendEmpty(CollectSamples(init, scan), Added(m, scan));
      NothingParsedSnoc(messages, scan);
    }
  }

  /** The four metrics shown to the user. */
  datatype RoleMetrics = RoleMetrics(
    domainKnowledge: real,
    methodologyUnderstanding: real,
    practicalExperience: real,
    overallScore: real)

  const ZeroMetrics := RoleMetrics(0.0, 0.0, 0.0, 0.0)

  /** The group average, or the fallback when the group has no samples. */
  function GroupAverage(xs: seq<real>): real
    requires |xs| > 0 ==> AllInScoreRange(xs)
  {
    if |xs| > 0 then Mean(xs) else GroupFallback
  }

  /** Technical competence weighs 0.5, experience match 0.3, communication 0.2. */
  function Overall(domain: real, methodology: real, practical: real): real {
    domain * 0.5 + practical * 0.3 + methodology * 0.2
  }

  /** `calculate_role_specific_metrics`, before the final rounding to one decimal. */
  function CalculateRoleSpecificMetrics(messages: seq<Message>, scan: string -> Scan): (r: RoleMetrics)
    // all zeros exactly when no assessment yields a single sub-score (also when assessments exist)
    ensures r == ZeroMetrics <==> NothingParsed(messages, scan)
    // otherwise every metric is a score in [1,10] ...
    ensures r != ZeroMetrics ==>
      InScoreRange(r.domainKnowledge) && InScoreRange(r.methodologyUnderstanding)
      && InScoreRange(r.practicalExperience) && InScoreRange(r.overallScore)
    // ... and the overall score lies between the smallest and largest component
    ensures r != ZeroMetrics ==>
      var lo := Min3(r.domainKnowledge, r.methodologyUnderstanding, r.practicalExperience);
      var hi := Max3(r.domainKnowledge, r.methodologyUnderstanding, r.practicalExperience);
      lo <= r.overallScore <= hi
    ensures r.overallScore == Overall(r.domainKnowledge, r.methodologyUnderstanding, r.practicalExperience)
    // each group metric averages the per-assessment group means, or is 6.0 for a group without any
    ensures r != ZeroMetrics ==>
      var s := CollectSamples(messages, scan);
      && r.domainKnowledge == GroupAverage(s.technical)
      && r.methodologyUnderstanding == GroupAverage(s.communication)
      && r.practicalExperience == GroupAverage(s.experience)
  {
    var s := CollectSamples(messages, scan);
    CollectEmptyIff(messages, scan);
    if s == NoSamples then ZeroMetrics
    else
      var domain := GroupAverage(s.technical);
      var methodology := GroupAverage(s.communication);
      var practical := GroupAverage(s.experience);
      MeanIfAny(s.technical);
      MeanIfAny(s.communication);
      MeanIfAny(s.experience);
      RoleMetrics(domain, methodology, practical, Overall(domain, methodology, practical))
  }

  function Min3(a: real, b: real, c: real): real {
    if a <= b && a <= c then a else if b <= c then b else c
  }

  function Max3(a: real, b: real, c: real): real {
    if a >= b && a >= c then a else if b >= c then b else c
  }

  /* ------------------------------------------------------------- properties */

  function Assessments(messages: seq<Message>): (r: seq<Message>)
    ensures forall i | 0 <= i < |r| :: IsAssessment(r[i])
  {
    if |messages| == 0 then []
    else
      var rest := Assessments(messages[..|messages| - 1]);
      if IsAssessment(messages[|messages| - 1]) then rest + [messages[|messages| - 1]] else rest
  }

  lemma {:induction false} CollectOnlyAssessments(messages: seq<Message>, scan: string -> Scan)
    ensures CollectSamples(Assessments(messages), scan) == CollectSamples(messages, scan)
  {
    if |messages| > 0 {
      var init := messages[..|messages| - 1];
      var m := messages[|messages| - 1];
      CollectOnlyAssessments(init, scan);
      var a := Assessments(init);
      if IsAssessment(m) {
        assert (a + [m])[..|a + [m]| - 1] == a;
      }
    }
  }

  /** Messages other than assistant assessments never influence the metrics. */
  lemma OnlyAssessmentsCount(messages: seq<Message>, scan: string -> Scan)
    ensures CalculateRoleSpecificMetrics(Assessments(messages), scan)
         == CalculateRoleSpecificMetrics(messages, scan)
  {
    CollectOnlyAssessments(messages, scan);
  }

  /** One assessment whose text yields no sub-score at all produces all zeros, not the 6.0 fallback. */
  lemma UnparseableAssessmentGivesZeros(m: Message, scan: string -> Scan)
    requires IsAssessment(m) && Extracted(m, scan) == map[]
    ensures CalculateRoleSpecificMetrics([m], scan) == ZeroMetrics
  {
  }

  /** A group missing from every assessment falls back to 6.0 as soon as another group has a sample. */
  lemma MissingGroupFallsBack(messages: seq<Message>, scan: string -> Scan)
    requires !NothingParsed(messages, scan)
    ensures CollectSamples(messages, scan).technical == [] ==>
      CalculateRoleSpecificMetrics(messages, scan).domainKnowledge == GroupFallback
    ensures CollectSamples(messages, scan).communication == [] ==>
      CalculateRoleSpecificMetrics(messages, scan).methodologyUnderstanding == GroupFallback
    ensures CollectSamples(messages, scan).experience == [] ==>
      CalculateRoleSpecificMetrics(messages, scan).practicalExperience == GroupFallback
  {
  }

  lemma AppendAssoc(a: Samples, b: Samples, c: Samples)
    ensures Append(Append(a, b), c) == Append(a, Append(b, c))
  {
    assert (a.technical + b.technical) + c.technical == a.technical + (b.technical + c.technical);
    assert (a.communication + b.communication) + c.communication
        == a.communication + (b.communication + c.communication);
    assert (a.experience + b.experience) + c.experience == a.experience + (b.experience + c.experience);
  }

  /** Collecting over two transcripts one after the other is collecting over each and joining the samples. */
  lemma {:induction false} CollectAppend(xs: seq<Message>, ys: seq<Message>, scan: string -> Scan)
    ensures CollectSamples(xs + ys, scan) == Append(CollectSamples(xs, scan), CollectSamples(ys, scan))
    decreases |ys|
  {
    var c := CollectSamples(xs, scan);
    if |ys| == 0 {
      assert xs + ys == xs;
      assert c.technical + [] == c.technical && c.communication + [] == c.communication
        && c.experience + [] == c.experience;
    } else {
      var init, last := ys[..|ys| - 1], ys[|ys| - 1];
      assert (xs + ys)[..|xs + ys| - 1] == xs + init;
      assert (xs + ys)[|xs + ys| - 1] == last;
      CollectAppend(xs, init, scan);
      AppendAssoc(c, CollectSamples(init, scan), Added(last, scan));
    }
  }

  lemma {:induction false} SumAppend(xs: seq<real>, ys: seq<real>)
    ensures Sum(xs + ys) == Sum(xs) + Sum(ys)
    decreases |ys|
  {
    if |ys| == 0 {
      assert xs + ys == xs;
    } else {
      assert (xs + ys)[..|xs + ys| - 1] == xs + ys[..|ys| - 1];
      SumAppend(xs, ys[..|ys| - 1]);
    }
  }

  /** The mean of a concatenation weighs each part by its length. */
  lemma MeanAppend(xs: seq<real>, ys: seq<real>)
    requires |xs| + |ys| > 0
    ensures Mean(xs + ys) == (Sum(xs) + Sum(ys)) / ((|xs| + |ys|) as real)
  {
    SumAppend(xs, ys);
  }

  /**
   Two assessments that both carry technical sub-scores: domain knowledge is the
   mean of the two per-assessment means, not the mean of all sub-scores pooled.
   */
  lemma TwoAssessmentsDomain(m1: Message, m2: Message, scan: string -> Scan)
    requires IsAssessment(m1) && IsAssessment(m2)
    requires |Present(Extracted(m1, scan), TechnicalGroup)| > 0
    requires |Present(Extracted(m2, scan), TechnicalGroup)| > 0
    ensures CalculateRoleSpecificMetrics([m1, m2], scan).domainKnowledge
         == (Mean(Present(Extracted(m1, scan), TechnicalGroup)) + Mean(Present(Extracted(m2, scan), TechnicalGroup))) / 2.0
  {
    var a := Mean(Present(Extracted(m1, scan), TechnicalGroup));
    var b := Mean(Present(Extracted(m2, scan), TechnicalGroup));
    AddedTechnical(m1, scan);
    AddedTechnical(m2, scan);
    TechnicalOfTwo(m1, m2, scan, a, b);
    DomainOfTwoSamples([m1, m2], scan, a, b);
  }

  lemma TechnicalOfTwo(m1: Message, m2: Message, scan: string -> Scan, a: real, b: real)
    requires Added(m1, scan).technical == [a] && Added(m2, scan).technical == [b]
    ensures CollectSamples([m1, m2], scan).technical == [a, b]
  {
    CollectTwo(m1, m2, scan);
    assert [a] + [b] == [a, b];
  }

  lemma DomainOfTwoSamples(messages: seq<Message>, scan: string -> Scan, a: real, b: real)
    requires CollectSamples(messages, scan).technical == [a, b]
    ensures CalculateRoleSpecificMetrics(messages, scan).domainKnowledge == (a + b) / 2.0
  {
    DomainFromSamples(messages, scan);
    TwoMean(a, b);
  }

  /** With technical samples present, domain knowledge is their mean. */
  lemma DomainFromSamples(messages: seq<Message>, scan: string -> Scan)
    requires CollectSamples(messages, scan).technical != []
    ensures CalculateRoleSpecificMetrics(messages, scan).domainKnowledge
         == Mean(CollectSamples(messages, scan).technical)
  {
    assert CollectSamples(messages, scan) != NoSamples;
  }

  /** An assessment with technical sub-scores adds exactly their mean to the technical group. */
  lemma AddedTechnical(m: Message, scan: string -> Scan)
    requires IsAssessment(m)
    requires |Present(Extracted(m, scan), TechnicalGroup)| > 0
    ensures Added(m, scan).technical == [Mean(Present(Extracted(m, scan), TechnicalGroup))]
  {
    assert Extracted(m, scan) != map[];
  }

  lemma CollectTwo(m1: Message, m2: Message, scan: string -> Scan)
    ensures CollectSamples([m1, m2], scan) == Append(Added(m1, scan), Added(m2, scan))
  {
    CollectAppend([m1], [m2], scan);
    CollectOne(m1, scan);
    CollectOne(m2, scan);
    assert [m1] + [m2] == [m1, m2];
  }

  lemma CollectOne(m: Message, scan: string -> Scan)
    ensures CollectSamples([m], scan) == Added(m, scan)
  {
    assert [m][..0] == [];
    AppendToNothing(Added(m, scan));
  }

  lemma TwoMean(a: real, b: real)
    ensures Mean([a, b]) == (a + b) / 2.0
  {
    assert [a, b][..1] == [a];
    assert [a][..0] == [];
    assert Sum([a]) == a;
    assert Sum([a, b]) == a + b;
  }

  /** A transcript of one assessment: its technical sub-scores' mean is the domain knowledge metric. */
  lemma OneAssessmentDomain(m: Message, scan: string -> Scan)
    requires IsAssessment(m)
    requires |Present(Extracted(m, scan), TechnicalGroup)| > 0
    ensures CalculateRoleSpecificMetrics([m], scan).domainKnowledge
         == Mean(Present(Extracted(m, scan), TechnicalGroup))
  {
    var tech := Present(Extracted(m, scan), TechnicalGroup);
    assert Extracted(m, scan) != map[];
    var s := CollectSamples([m], scan);
    assert s == Append(CollectSamples([m][..0], scan), Added(m, scan));
    assert CollectSamples([m][..0], scan) == NoSamples by {
      assert [m][..0] == [];
    }
    AppendToNothing(Added(m, scan));
    assert s.technical == [Mean(tech)];
    SingletonMean(Mean(tech));
    assert s != NoSamples;
  }

  lemma AppendToNothing(b: Samples)
    ensures Append(NoSamples, b) == b
  {
    assert [] + b.technical == b.technical;
    assert [] + b.communication == b.communication;
    assert [] + b.experience == b.experience;
  }

  lemma SingletonMean(x: real)
    ensures Mean([x]) == x
  {
    assert [x][..0] == [];
    assert Sum([x]) == Sum([]) + x;
  }

  /** Transcripts with the same assessments, in the same order, give the same metrics. */
  lemma SameAssessmentsSameMetrics(a: seq<Message>, b: seq<Message>, scan: string -> Scan)
    requires Assessments(a) == Assessments(b)
    ensures CalculateRoleSpecificMetrics(a, scan) == CalculateRoleSpecificMetrics(b, scan)
  {
    OnlyAssessmentsCount(a, scan);
    OnlyAssessmentsCount(b, scan);
  }
}

=== FILE: results.dfy ===
/** Small failure-carrying datatypes shared by the other modules. */
module Results {

  /** A value that may be absent, like Python's `None`. */
  datatype Option<+T> = None | Some(value: T)

  /** Either a value or the error a Python call would have raised. */
  datatype Result<+T, +E> = Ok(value: T) | Err(error: E)
}

=== FILE: score_extraction.dfy ===
/**
 Extraction of named sub-scores from the free text of one model evaluation
 (`extract_scores_from_text`).

 The regular-expression engine is not modelled. For one text it is represented
 by a `Scan`: `firstMatch(p)` is the number captured by the FIRST match of
 pattern `p` (case-insensitive, dot matches newline), or `None` when `p` does
 not match; `numbers` are the standalone numeric tokens of the text, in order
 of appearance, already converted to numbers.
 */
module ScoreExtraction {
  import opened Results

  /** The seven sub-score names, in the order of the pattern table. */
  datatype Category =
    | KnowledgeDepth | Implementation | BestPractices
    | Clarity | Structure | Professionalism
    | ExperienceMatch

  const Categories: seq<Category> :=
    [KnowledgeDepth, Implementation, BestPractices, Clarity, Structure, Professionalism, ExperienceMatch]

  const CategorySet: set<Category> := set c | c in Categories

  /** The categories the positional fallback fills, in the order it fills them. */
  const FallbackOrder: seq<Category> :=
    [KnowledgeDepth, Implementation, BestPractices, Clarity, Structure, Professionalism]

  /** The ordered candidate patterns of each category, most specific first. */
  function Patterns(c: Category): seq<string> {
    match c
    case KnowledgeDepth =>
      [@"Knowledge Depth:\s*(\d+(?:\.\d+)?)", @"- Knowledge Depth:\s*(\d+(?:\.\d+)?)", @"Knowledge.*?(\d+(?:\.\d+)?)/10"]
    case Implementation =>
      [@"Implementation Understanding:\s*(\d+(?:\.\d+)?)", @"- Implementation Understanding:\s*(\d+(?:\.\d+)?)",
       @"Implementation.*?(\d+(?:\.\d+)?)/10"]
    case BestPractices =>
      [@"Best Practices Awareness:\s*(\d+(?:\.\d+)?)", @"- Best Practices Awareness:\s*(\d+(?:\.\d+)?)",
       @"Best Practices.*?(\d+(?:\.\d+)?)/10"]
    case Clarity =>
      [@"Clarity:\s*(\d+(?:\.\d+)?)", @"- Clarity:\s*(\d+(?:\.\d+)?)", @"Clarity.*?(\d+(?:\.\d+)?)/10"]
    case Structure =>
      [@"Structure:\s*(\d+(?:\.\d+)?)", @"- Structure:\s*(\d+(?:\.\d+)?)", @"Structure.*?(\d+(?:\.\d+)?)/10"]
    case Professionalism =>
      [@"Professionalism:\s*(\d+(?:\.\d+)?)", @"- Professionalism:\s*(\d+(?:\.\d+)?)",
       @"Professionalism.*?(\d+(?:\.\d+)?)/10"]
    case ExperienceMatch =>
      [@"Score:\s*(\d+(?:\.\d+)?)", @"alignment.*?(\d+(?:\.\d+)?)/10", @"Experience.*?Score.*?(\d+(?:\.\d+)?)"]
  }

  /** What the regular-expression engine reports about one text. */
  datatype Scan = Scan(firstMatch: string -> Option<real>, numbers: seq<real>)

  /** A sub-score set: an absent key means "not found in the text", never zero. */
  type ScoreSet = map<Category, real>

  predicate InScoreRange(x: real) {
    1.0 <= x <= 10.0
  }

  predicate Accepted(m: Option<real>) {
    m.Some? && InScoreRange(m.value)
  }

  /** A table giving each category its ordered candidate patterns; `Patterns` is the one the application uses. */
  type PatternTable = Category -> seq<string>

  /** Pattern `i` of category `c` is the one whose value is kept: it is accepted and no earlier pattern is. */
  predicate Winning(table: PatternTable, c: Category, search: string -> Option<real>, i: int) {
    0 <= i < |table(c)| && Accepted(search(table(c)[i]))
    && forall j | 0 <= j < i :: !Accepted(search(table(c)[j]))
  }

  /** Some pattern of `c` yields an in-range value. */
  predicate Found(table: PatternTable, c: Category, search: string -> Option<real>) {
    exists i | 0 <= i < |table(c)| :: Accepted(search(table(c)[i]))
  }

  /** Index of the first pattern at or after `k` whose first match is in range. */
  function FirstAcceptedFrom(ps: seq<string>, search: string -> Option<real>, k: nat): (r: Option<nat>)
    ensures r.Some? ==> k <= r.value < |ps| && Accepted(search(ps[r.value]))
    ensures r.Some? ==> forall j | k <= j < r.value :: !Accepted(search(ps[j]))
    ensures r.None? ==> forall j | k <= j < |ps| :: !Accepted(search(ps[j]))
    decreases |ps| - k
  {
    if k >= |ps| then None
    else if Accepted(search(ps[k])) then Some(k)
    else FirstAcceptedFrom(ps, search, k + 1)
  }

  /** The value the labelled pass keeps for `c`, if any. */
  function LabelledScore(table: PatternTable, c: Category, search: string -> Option<real>): (r: Option<real>)
    ensures r.None? <==> !Found(table, c, search)
    ensures r.Some? ==> InScoreRange(r.value)
    ensures forall i | Winning(table, c, search, i) :: r == search(table(c)[i])
  {
    match FirstAcceptedFrom(table(c), search, 0)
    case None => None
    case Some(i) =>
      assert Winning(table, c, search, i);
      search(table(c)[i])
  }

  /** The numeric tokens whose value is in [1,10], in order of appearance. */
  function InRangeNumbers(ns: seq<real>): (r: seq<real>)
    ensures |r| <= |ns|
    ensures forall x | x in r :: InScoreRange(x)
    ensures forall x | x in ns && InScoreRange(x) :: x in r
    ensures forall x | x in r :: x in ns
    // with the distribution over concatenation below, these fix duplicates and order
    ensures ns == [] ==> r == []
    ensures |ns| == 1 ==> r == if InScoreRange(ns[0]) then ns else []
  {
    if |ns| == 0 then []
    else if InScoreRange(ns[|ns| - 1]) then InRangeNumbers(ns[..|ns| - 1]) + [ns[|ns| - 1]]
    else InRangeNumbers(ns[..|ns| - 1])
  }

  /** Filtering keeps the order of appearance: it distributes over concatenation. */
  lemma {:induction false} InRangeNumbersAppend(a: seq<real>, b: seq<real>)
    ensures InRangeNumbers(a + b) == InRangeNumbers(a) + InRangeNumbers(b)
    decreases |b|
  {
    if |b| == 0 {
      assert a + b == a;
    } else {
      assert (a + b)[..|a + b| - 1] == a + b[..|b| - 1];
      InRangeNumbersAppend(a, b[..|b| - 1]);
    }
  }

  /** When every token is in range, the filter keeps them all, repeats included, in order. */
  lemma {:induction false} InRangeNumbersKeepsAll(ns: seq<real>)
    requires forall i | 0 <= i < |ns| :: InScoreRange(ns[i])
    ensures InRangeNumbers(ns) == ns
    decreases |ns|
  {
    if |ns| > 0 {
      var init := ns[..|ns| - 1];
      InRangeNumbersKeepsAll(init);
      assert ns == init + [ns[|ns| - 1]];
    }
  }

  /** The labelled pass: every category whose patterns yield an in-range value. */
  function LabelledScores(table: PatternTable, search: string -> Option<real>): ScoreSet {
    map c | c in CategorySet && LabelledScore(table, c, search).Some? :: LabelledScore(table, c, search).value
  }

  const FallbackSet: set<Category> :=
    {KnowledgeDepth, Implementation, BestPractices, Clarity, Structure, Professionalism}

  /** The positional fallback over the in-range tokens. */
  function FallbackScores(valid: seq<real>): ScoreSet {
    var m1: ScoreSet := if |valid| >= 1 then map[KnowledgeDepth := valid[0]] else map[];
    var m2 := if |valid| >= 2 then m1[Implementation := valid[1]] else m1;
    var m3 := if |valid| >= 3 then m2[BestPractices := valid[2]] else m2;
    var m4 := if |valid| >= 4 then m3[Clarity := valid[3]] else m3;
    var m5 := if |valid| >= 5 then m4[Structure := valid[4]] else m4;
    if |valid| >= 6 then m5[Professionalism := valid[5]] else m5
  }

  /** Labelled pass: per category, the first accepted pattern wins; no accepted pattern means absent. */
  ghost predicate LabelledShaped(table: PatternTable, search: string -> Option<real>, r: ScoreSet) {
    && (forall c :: c in r <==> Found(table, c, search))
    && (forall c, i | Winning(table, c, search, i) :: c in r && r[c] == search(table(c)[i]).value)
  }

  /** Positional fallback: the in-range tokens in order, at most six keys, never ExperienceMatch. */
  ghost predicate FallbackShaped(valid: seq<real>, r: ScoreSet) {
    && ExperienceMatch !in r
    && |r| <= 6
    && (forall i | 0 <= i < 6 :: FallbackOrder[i] in r <==> i < |valid|)
    && (forall i | 0 <= i < 6 && i < |valid| :: FallbackOrder[i] in r && r[FallbackOrder[i]] == valid[i])
  }

  /** `extract_scores_from_text` for an arbitrary pattern table. */
  function ExtractWith(table: PatternTable, scan: Scan): (r: ScoreSet)
    // range invariant: only values in [1,10] are ever kept
    ensures forall c | c in r :: InScoreRange(r[c])
    ensures (exists c | c in CategorySet :: Found(table, c, scan.firstMatch)) ==>
      LabelledShaped(table, scan.firstMatch, r)
    // the fallback runs only when no category was found
    ensures (forall c | c in CategorySet :: !Found(table, c, scan.firstMatch)) ==>
      FallbackShaped(InRangeNumbers(scan.numbers), r)
  {
    var labelled := LabelledScores(table, scan.firstMatch);
    FoundIsLabelled(table, scan.firstMatch);
    if labelled != map[] then
      labelled
    else
      var valid := InRangeNumbers(scan.numbers);
      FallbackShape(valid);
      FallbackScores(valid)
  }

  /** `extract_scores_from_text` with the application's own pattern table. */
  function ExtractScores(scan: Scan): ScoreSet {
    ExtractWith(Patterns, scan)
  }

  lemma EveryCategoryListed(c: Category)
    ensures c in CategorySet
  {
    match c
    case KnowledgeDepth => assert Categories[0] == c;
    case Implementation => assert Categories[1] == c;
    case BestPractices => assert Categories[2] == c;
    case Clarity => assert Categories[3] == c;
    case Structure => assert Categories[4] == c;
    case Professionalism => assert Categories[5] == c;
    case ExperienceMatch => assert Categories[6] == c;
  }

  lemma FoundIsLabelled(table: PatternTable, search: string -> Option<real>)
    ensures forall c | c in LabelledScores(table, search) :: InScoreRange(LabelledScores(table, search)[c])
    ensures LabelledScores(table, search) == map[] <==> forall c | c in CategorySet :: !Found(table, c, search)
    ensures LabelledShaped(table, search, LabelledScores(table, search))
  {
    var m := LabelledScores(table, search);
    forall c ensures c in m <==> Found(table, c, search) {
      EveryCategoryListed(c);
    }
    forall c, i | Winning(table, c, search, i) ensures c in m && m[c] == search(table(c)[i]).value {
      assert Found(table, c, search);
    }
  }

  lemma FallbackShape(valid: seq<real>)
    ensures FallbackShaped(valid, FallbackScores(valid))
  {
    var r := FallbackScores(valid);
    assert r.Keys <= FallbackSet;
    assert |FallbackSet| == 6;
    SubsetCardinality(r.Keys, FallbackSet);
  }

  lemma SubsetCardinality<T>(a: set<T>, b: set<T>)
    requires a <= b
    ensures |a| <= |b|
  {
    assert b == a + (b - a);
  }

  /* ------------------------------------------------------------- properties */

  /** An exactly labelled in-range value wins over anything the looser patterns would capture. */
  lemma ExactLabelWins(table: PatternTable, scan: Scan, c: Category, v: real)
    requires |table(c)| > 0
    requires scan.firstMatch(table(c)[0]) == Some(v) && InScoreRange(v)
    ensures c in ExtractWith(table, scan) && ExtractWith(table, scan)[c] == v
  {
    assert Winning(table, c, scan.firstMatch, 0);
    EveryCategoryListed(c);
  }

  /** An out-of-range first pattern is skipped and the next accepted pattern supplies the value. */
  lemma OutOfRangeFallsThrough(table: PatternTable, scan: Scan, c: Category, bad: real, v: real)
    requires |table(c)| > 1
    requires scan.firstMatch(table(c)[0]) == Some(bad) && !InScoreRange(bad)
    requires scan.firstMatch(table(c)[1]) == Some(v) && InScoreRange(v)
    ensures c in ExtractWith(table, scan) && ExtractWith(table, scan)[c] == v
  {
    assert Winning(table, c, scan.firstMatch, 1);
    EveryCategoryListed(c);
  }

  /** With no category found, the result is exactly the positional fallback. */
  lemma NothingFoundFallsBack(table: PatternTable, scan: Scan)
    requires forall c :: !Found(table, c, scan.firstMatch)
    ensures ExtractWith(table, scan) == FallbackScores(InRangeNumbers(scan.numbers))
  {
    FoundIsLabelled(table, scan.firstMatch);
  }

  /** Three in-range numbers all survive the filter, in order. */
  lemma InRangeOfThree(a: real, b: real, c: real)
    requires InScoreRange(a) && InScoreRange(b) && InScoreRange(c)
    ensures InRangeNumbers([a, b, c]) == [a, b, c]
  {
    assert [a, b, c][..2] == [a, b];
    assert [a, b][..1] == [a];
    assert [a][..0] == [];
  }

  /** A text where no pattern matches has no category found. */
  lemma NoMatchNothingFound(table: PatternTable, search: string -> Option<real>)
    requires forall p :: search(p).None?
    ensures forall c :: !Found(table, c, search)
  {
  }

  /** Three unlabelled in-range numbers go, in order, to the three technical categories. */
  lemma ThreeUnlabelledNumbers(scan: Scan, a: real, b: real, c: real)
    requires forall p :: scan.firstMatch(p).None?
    requires scan.numbers == [a, b, c]
    requires InScoreRange(a) && InScoreRange(b) && InScoreRange(c)
    ensures ExtractScores(scan) == map[KnowledgeDepth := a, Implementation := b, BestPractices := c]
  {
    InRangeOfThree(a, b, c);
    NoMatchNothingFound(Patterns, scan.firstMatch);
    NothingFoundFallsBack(Patterns, scan);
  }
}

=== FILE: session_manager.dfy ===
/**
 The per-browser-session state (`st.session_state`) as an immutable record, and
 the `SessionManager` operations on it as functions from one state to the next.
 The clock is a parameter: `now` is what `time.time()` would return.
 */
module SessionManager {
  import opened Results
  import opened Text
  import opened Transcript
  import opened MetricsCalculator

  /** `session_stats`; `role_specific_metrics` is `{}` (None) until the first update. */
  datatype Stats = Stats(
    totalQuestions: nat, technicalScore: real, communicationScore: real,
    roleMetrics: Option<RoleMetrics>)

  const EmptyStats := Stats(0, 0.0, 0.0, None)

  /** One entry of `interview_history`; the timestamp is supplied by the caller. */
  datatype HistoryEntry = HistoryEntry(
    timestamp: string, role: string, experience: string, interviewType: string,
    question: string, answer: string, feedback: string)

  datatype Session = Session(
    messages: seq<Message>,
    requestCount: nat,
    lastRequestTime: real,
    history: seq<HistoryEntry>,
    stats: Stats,
    started: bool,
    processing: bool,
    currentResponse: string)

  /* ---------------------------------------------------------- initialisation */

  /** The session store as found on a page load: any of the eight keys may be absent. */
  datatype Stored = Stored(
    messages: Option<seq<Message>>,
    requestCount: Option<nat>,
    lastRequestTime: Option<real>,
    history: Option<seq<HistoryEntry>>,
    stats: Option<Stats>,
    started: Option<bool>,
    processing: Option<bool>,
    currentResponse: Option<string>)

  predicate Complete(s: Stored) {
    && s.messages.Some? && s.requestCount.Some? && s.lastRequestTime.Some? && s.history.Some?
    && s.stats.Some? && s.started.Some? && s.processing.Some? && s.currentResponse.Some?
  }

  /** A key keeps its value when present and receives the default otherwise. */
  function Fill<T>(present: Option<T>, default: T): (r: Option<T>)
    ensures present.Some? ==> r == present
    ensures present.None? ==> r == Some(default)
  {
    if present.Some? then present else Some(default)
  }

  /** `_initialize_session_state` at time `now`. */
  function Initialize(s: Stored, now: real): (r: Stored)
    ensures Complete(r)
    // keys already present are never overwritten
    ensures s.messages.Some? ==> r.messages == s.messages
    ensures s.requestCount.Some? ==> r.requestCount == s.requestCount
    ensures s.lastRequestTime.Some? ==> r.lastRequestTime == s.lastRequestTime
    ensures s.history.Some? ==> r.history == s.history
    ensures s.stats.Some? ==> r.stats == s.stats
    ensures s.started.Some? ==> r.started == s.started
    ensures s.processing.Some? ==> r.processing == s.processing
    ensures s.currentResponse.Some? ==> r.currentResponse == s.currentResponse
    // an empty store receives the defaults, the clock reading included
    ensures s == Stored(None, None, None, None, None, None, None, None) ==>
      r == Stored(Some([]), Some(0), Some(now), Some([]), Some(EmptyStats), Some(false), Some(false), Some(""))
  {
    Stored(
      Fill(s.messages, []),
      Fill(s.requestCount, 0),
      Fill(s.lastRequestTime, now),
      Fill(s.history, []),
      Fill(s.stats, EmptyStats),
      Fill(s.started, false),
      Fill(s.processing, false),
      Fill(s.currentResponse, ""))
  }

  /** Running the initialisation again, at any later time, changes nothing. */
  lemma InitializeIdempotent(s: Stored, now: real, later: real)
    ensures Initialize(Initialize(s, now), later) == Initialize(s, now)
  {
  }

  /** The record a complete store describes. */
  function Loaded(s: Stored): (r: Session)
    requires Complete(s)
    ensures Initialize(Unloaded(r), 0.0) == s
  {
    Session(s.messages.value, s.requestCount.value, s.lastRequestTime.value, s.history.value,
            s.stats.value, s.started.value, s.processing.value, s.currentResponse.value)
  }

  function Unloaded(s: Session): Stored {
    Stored(Some(s.messages), Some(s.requestCount), Some(s.lastRequestTime), Some(s.history),
           Some(s.stats), Some(s.started), Some(s.processing), Some(s.currentResponse))
  }

  /* ------------------------------------------------------------ rate limit */

  const MinInterval: real := 1.0

  /** Whether the request may proceed, how long to wait otherwise, and the state afterwards. */
  datatype RateCheck = RateCheck(allowed: bool, wait: real, session: Session)

  /** `check_rate_limit` at time `now`. */
  function CheckRateLimit(s: Session, now: real): (r: RateCheck)
    // refused exactly when less than a second has passed since the last accepted request
    ensures !r.allowed <==> now - s.lastRequestTime < MinInterval
    // a refusal reports a positive wait that would bring the gap up to one second, and changes nothing
    ensures !r.allowed ==> 0.0 < r.wait && now + r.wait == s.lastRequestTime + MinInterval && r.session == s
    // an acceptance records the time and counts the request, and nothing else
    ensures r.allowed ==>
      && r.wait == 0.0
      && r.session.lastRequestTime == now && r.session.requestCount == s.requestCount + 1
      && r.session.(lastRequestTime := s.lastRequestTime, requestCount := s.requestCount) == s
  {
    var diff := now - s.lastRequestTime;
    if diff < MinInterval then RateCheck(false, MinInterval - diff, s)
    else RateCheck(true, 0.0, s.(lastRequestTime := now, requestCount := s.requestCount + 1))
  }

  /** Two accepted requests are at least a second apart. */
  lemma AcceptedRequestsAreSpaced(s: Session, t1: real, t2: real)
    requires CheckRateLimit(s, t1).allowed
    requires CheckRateLimit(CheckRateLimit(s, t1).session, t2).allowed
    ensures t2 - t1 >= MinInterval
  {
  }

  /** Waiting the reported time is enough. */
  lemma WaitingSuffices(s: Session, now: real)
    requires !CheckRateLimit(s, now).allowed
    ensures CheckRateLimit(s, now + CheckRateLimit(s, now).wait).allowed
  {
  }

  /* ------------------------------------------------------- state operations */

  /** `reset_interview`. */
  function ResetInterview(s: Session): (r: Session)
    ensures r.messages == [] && r.stats == EmptyStats
    ensures !r.started && !r.processing && r.currentResponse == ""
    // the history and the rate-limit bookkeeping survive
    ensures r.history == s.history && r.requestCount == s.requestCount && r.lastRequestTime == s.lastRequestTime
  {
    s.(messages := [], stats := EmptyStats, started := false, processing := false, currentResponse := "")
  }

  lemma ResetIdempotent(s: Session)
    ensures ResetInterview(ResetInterview(s)) == ResetInterview(s)
  {
  }

  /** `add_message`. */
  function AddMessage(s: Session, m: Message): (r: Session)
    ensures |r.messages| == |s.messages| + 1
    ensures r.messages[..|s.messages|] == s.messages && r.messages[|s.messages|] == m
    ensures r.(messages := s.messages) == s
  {
    s.(messages := s.messages + [m])
  }

  /** `add_interview_history`. */
  function AddInterviewHistory(s: Session, entry: HistoryEntry): (r: Session)
    ensures |r.history| == |s.history| + 1
    ensures r.history[..|s.history|] == s.history && r.history[|s.history|] == entry
    ensures r.(history := s.history) == s
  {
    s.(history := s.history + [entry])
  }

  /** `update_session_stats`. */
  function UpdateSessionStats(s: Session, metrics: RoleMetrics): (r: Session)
    ensures r.stats.totalQuestions == s.stats.totalQuestions + 1
    ensures r.stats.roleMetrics == Some(metrics)
    ensures r.stats.technicalScore == s.stats.technicalScore
    ensures r.stats.communicationScore == s.stats.communicationScore
    ensures r.(stats := s.stats) == s
  {
    s.(stats := s.stats.(totalQuestions := s.stats.totalQuestions + 1, roleMetrics := Some(metrics)))
  }

  /** `set_processing_state`. */
  function SetProcessingState(s: Session, processing: bool, response: string): (r: Session)
    ensures r.processing == processing && r.currentResponse == response
    ensures r.(processing := s.processing, currentResponse := s.currentResponse) == s
  {
    s.(processing := processing, currentResponse := response)
  }

  /** `start_interview`. */
  function StartInterview(s: Session): (r: Session)
    ensures r.started && r.(started := s.started) == s
  {
    s.(started := true)
  }

  /* -------------------------------------------------------------- validation */

  /**
   The message of `ERROR_MESSAGES['invalid_input']`. The table lives in a
   configuration module that does not define it, so the key stands in for the text.
   */
  const InvalidInputMessage := "invalid_input"

  const MinAnswerLength := 10

  /** `validate_user_input`: `None` for a valid answer, the error message otherwise. */
  function ValidateUserInput(input: string): (r: Option<string>)
    ensures r.None? <==> |input| > 0 && |Strip(input)| >= MinAnswerLength
    ensures r.Some? ==> r.value == InvalidInputMessage
  {
    if |input| == 0 then Some(InvalidInputMessage)
    else if |Strip(input)| < MinAnswerLength then Some(InvalidInputMessage)
    else None
  }

  /** The only whitespace-free strip of an all-whitespace text is empty. */
  lemma StripOfSpaces(s: string)
    requires AllSpace(s)
    ensures Strip(s) == []
  {
    var r := Strip(s);
    var i :| StripsTo(s, r, i);
    InfixChars(s, r, i);
  }

  lemma InfixChars(s: string, r: string, i: int)
    requires StripsTo(s, r, i)
    ensures forall k | 0 <= k < |r| :: r[k] == s[i + k]
  {
  }

  /** Whitespace alone, however long, is never a valid answer. */
  lemma BlankInputRejected(s: string)
    requires AllSpace(s)
    ensures ValidateUserInput(s) == Some(InvalidInputMessage)
  {
    StripOfSpaces(s);
  }

  /** A text with no surrounding whitespace is valid exactly when it has at least ten characters. */
  lemma TrimmedInputValidIffLong(s: string)
    requires Trimmed(s)
    ensures ValidateUserInput(s).None? <==> |s| >= MinAnswerLength
  {
    StripTrimmed(s);
    ValidIffStrippedLong(s, Strip(s));
  }

  lemma ValidIffStrippedLong(s: string, stripped: string)
    requires Strip(s) == stripped
    ensures ValidateUserInput(s).None? <==> |s| > 0 && |stripped| >= MinAnswerLength
  {
  }

  /** The rejected answers of the unit tests: one too short, one empty. */
  lemma ValidationExamples()
    ensures ValidateUserInput("short") == Some(InvalidInputMessage)
    ensures ValidateUserInput("") == Some(InvalidInputMessage)
  {
  }

  /* ---------------------------------------------------------- last question */

  predicate IsQuestion(m: Message) {
    m.role == Assistant && m.kind == Question
  }

  const UnknownQuestion := Card("Unknown Question", "")

  /** `get_last_question`: the content of the most recent assistant question. */
  function GetLastQuestion(ms: seq<Message>): (r: Content)
    ensures (forall i | 0 <= i < |ms| :: !IsQuestion(ms[i])) ==> r == UnknownQuestion
    ensures forall i | 0 <= i < |ms| && IsQuestion(ms[i]) ::
      (forall j | i < j < |ms| :: !IsQuestion(ms[j])) ==> r == ms[i].content
  {
    if |ms| == 0 then UnknownQuestion
    else if IsQuestion(ms[|ms| - 1]) then ms[|ms| - 1].content
    else
      var r := GetLastQuestion(ms[..|ms| - 1]);
      assert forall i | 0 <= i < |ms| - 1 :: ms[..|ms| - 1][i] == ms[i];
      r
  }

  /** Appending a message changes the last question only if the message is a question. */
  lemma LastQuestionAfterAdd(ms: seq<Message>, m: Message)
    ensures GetLastQuestion(ms + [m]) == if IsQuestion(m) then m.content else GetLastQuestion(ms)
  {
    assert (ms + [m])[..|ms|] == ms;
  }

  /** `should_process_input`. */
  predicate ShouldProcessInput(s: Session, input: string) {
    |input| > 0 && input != s.currentResponse && !s.processing
  }

  /** Input equal to the answer being processed is never processed twice. */
  lemma ProcessingInputNotReprocessed(s: Session, input: string)
    ensures !ShouldProcessInput(SetProcessingState(s, true, input), input)
  {
  }
}

=== FILE: text.dfy ===
/**
 The handful of Python `str` operations the application relies on, written out
 over `seq<char>`: `isspace`, `strip`, `lower` (ASCII letters only),
 `split(sep, 1)`, `split()`, `replace(old, new, 1)` and substring search.
 */
module Text {
  import opened Results

  /** Python's `str.isspace()`: the ASCII controls 9-13 and 28-31, blank, and the Unicode spaces. */
  predicate IsSpace(c: char) {
    var x := c as int;
    || 0x09 <= x <= 0x0D || 0x1C <= x <= 0x20
    || x == 0x85 || x == 0xA0 || x == 0x1680 || 0x2000 <= x <= 0x200A
    || x == 0x2028 || x == 0x2029 || x == 0x202F || x == 0x205F || x == 0x3000
  }

  predicate AllSpace(s: string) {
    forall i | 0 <= i < |s| :: IsSpace(s[i])
  }

  predicate NoSpace(s: string) {
    forall i | 0 <= i < |s| :: !IsSpace(s[i])
  }

  /** Neither end of `s` is whitespace. */
  predicate Trimmed(s: string) {
    |s| == 0 || (!IsSpace(s[0]) && !IsSpace(s[|s| - 1]))
  }

  /* ---------------------------------------------------------------- lower */

  function LowerChar(c: char): char {
    if 'A' <= c <= 'Z' then (c as int + 32) as char else c
  }

  /** `str.lower()` restricted to ASCII letters. */
  function ToLower(s: string): (r: string)
    ensures |r| == |s|
    ensures forall i | 0 <= i < |s| :: r[i] == LowerChar(s[i])
  {
    seq(|s|, i requires 0 <= i < |s| => LowerChar(s[i]))
  }

  /** Lower-casing works piece by piece across a blank. */
  lemma ToLowerJoin(a: string, b: string)
    ensures ToLower(a + " " + b) == ToLower(a) + " " + ToLower(b)
  {
  }

  /* --------------------------------------------------------------- search */

  predicate OccursAt(s: string, pat: string, i: int) {
    0 <= i && i + |pat| <= |s| && s[i..i + |pat|] == pat
  }

  /** `i` is where `s.find(pat)` would answer: the leftmost occurrence. */
  predicate FirstOccurrence(s: string, pat: string, i: int) {
    OccursAt(s, pat, i) && forall j | 0 <= j < i :: !OccursAt(s, pat, j)
  }

  /** Python's `pat in s`. */
  predicate Contains(s: string, pat: string) {
    exists i | 0 <= i <= |s| :: OccursAt(s, pat, i)
  }

  function IndexOfFrom(s: string, pat: string, k: nat): (r: Option<nat>)
    ensures r.Some? ==> k <= r.value && OccursAt(s, pat, r.value)
    ensures r.Some? ==> forall j | k <= j < r.value :: !OccursAt(s, pat, j)
    ensures r.None? ==> forall j | k <= j <= |s| :: !OccursAt(s, pat, j)
    decreases |s| + 1 - k
  {
    if k > |s| then None
    else if OccursAt(s, pat, k) then Some(k)
    else IndexOfFrom(s, pat, k + 1)
  }

  /** `s.find(pat)`, with `None` for -1. */
  function IndexOf(s: string, pat: string): (r: Option<nat>)
    ensures r.Some? <==> Contains(s, pat)
    ensures r.Some? ==> FirstOccurrence(s, pat, r.value)
  {
    IndexOfFrom(s, pat, 0)
  }

  /** An occurrence inside a slice is an occurrence in the whole string. */
  lemma OccursInSlice(s: string, pat: string, lo: int, hi: int, j: int)
    requires 0 <= lo <= hi <= |s|
    requires OccursAt(s[lo..hi], pat, j)
    ensures OccursAt(s, pat, lo + j)
  {
    var inner, outer := s[lo..hi][j..j + |pat|], s[lo + j..lo + j + |pat|];
    forall k | 0 <= k < |pat| ensures inner[k] == outer[k] {
      assert inner[k] == s[lo + j + k];
    }
    assert inner == outer;
  }

  /** A piece of a string that does not contain `pat` does not contain it either. */
  lemma NotContainsSlice(s: string, pat: string, lo: int, hi: int)
    requires 0 <= lo <= hi <= |s|
    requires !Contains(s, pat)
    ensures !Contains(s[lo..hi], pat)
  {
    if Contains(s[lo..hi], pat) {
      var j :| 0 <= j <= hi - lo && OccursAt(s[lo..hi], pat, j);
      OccursInSlice(s, pat, lo, hi, j);
    }
  }

  /** A string without the first character of `pat` cannot contain `pat`. */
  lemma MissingFirstChar(s: string, pat: string)
    requires |pat| > 0
    requires forall i | 0 <= i < |s| :: s[i] != pat[0]
    ensures !Contains(s, pat)
  {
    forall i | 0 <= i <= |s| ensures !OccursAt(s, pat, i) {
      if i + |pat| <= |s| {
        assert s[i..i + |pat|][0] == s[i];
      }
    }
  }

  /* ---------------------------------------------------------------- split */

  /** The pieces of `s.split(sep, 1)`: the text before the first `sep`, and the text after it if `sep` occurs. */
  datatype Split = Split(head: string, tail: Option<string>)

  /** `s.split(sep, 1)`; Python rejects an empty separator. */
  function SplitOnce(s: string, sep: string): (r: Split)
    requires |sep| > 0
    ensures !Contains(s, sep) ==> r == Split(s, None)
    ensures forall i | FirstOccurrence(s, sep, i) :: r == Split(s[..i], Some(s[i + |sep|..]))
    ensures r.tail.Some? ==> s == r.head + sep + r.tail.value && !Contains(r.head, sep)
  {
    match IndexOf(s, sep)
    case None => Split(s, None)
    case Some(i) =>
      FirstOccurrenceSplit(s, sep, i);
      Split(s[..i], Some(s[i + |sep|..]))
  }

  /** What the leftmost occurrence of `pat` at `i` says about the text around it. */
  lemma FirstOccurrenceSplit(s: string, pat: string, i: int)
    requires FirstOccurrence(s, pat, i)
    ensures s == s[..i] + pat + s[i + |pat|..]
    ensures |pat| > 0 ==> !Contains(s[..i], pat)
    ensures forall k | FirstOccurrence(s, pat, k) :: k == i
  {
    if |pat| > 0 {
      forall j | 0 <= j <= i ensures !OccursAt(s[..i], pat, j) {
        if OccursAt(s[..i], pat, j) {
          OccursInSlice(s, pat, 0, i, j);
        }
      }
    }
  }

  /** `s.replace(pat, rep, 1)`. */
  function ReplaceFirst(s: string, pat: string, rep: string): (r: string)
    ensures !Contains(s, pat) ==> r == s
    ensures forall i | FirstOccurrence(s, pat, i) :: r == s[..i] + rep + s[i + |pat|..]
  {
    match IndexOf(s, pat)
    case None => s
    case Some(i) =>
      FirstOccurrenceSplit(s, pat, i);
      s[..i] + rep + s[i + |pat|..]
  }

  /* ---------------------------------------------------------------- strip */

  function TrimStart(s: string): (r: string)
    ensures |r| <= |s| && r == s[|s| - |r|..]
    ensures AllSpace(s[..|s| - |r|])
    ensures |r| > 0 ==> !IsSpace(r[0])
  {
    if |s| > 0 && IsSpace(s[0]) then
      var r := TrimStart(s[1..]);
      assert s[1..][|s| - 1 - |r|..] == s[|s| - |r|..];
      assert forall i | 1 <= i < |s| - |r| :: s[i] == s[1..][..|s| - 1 - |r|][i - 1];
      r
    else s
  }

  function TrimEnd(s: string): (r: string)
    ensures |r| <= |s| && r == s[..|r|]
    ensures AllSpace(s[|r|..])
    ensures |r| > 0 ==> !IsSpace(r[|r| - 1])
  {
    if |s| > 0 && IsSpace(s[|s| - 1]) then
      var r := TrimEnd(s[..|s| - 1]);
      assert s[..|s| - 1][..|r|] == s[..|r|];
      assert forall i | |r| <= i < |s| - 1 :: s[i] == s[..|s| - 1][|r|..][i - |r|];
      r
    else s
  }

  /** `r` is `s` with the whitespace run `s[..i]` in front of it and a whitespace run behind it. */
  predicate StripsTo(s: string, r: string, i: int) {
    0 <= i && i + |r| <= |s| && r == s[i..i + |r|] && AllSpace(s[..i]) && AllSpace(s[i + |r|..])
  }

  /** `s.strip()`: the unique `Trimmed` infix of `s` surrounded only by whitespace. */
  function Strip(s: string): (r: string)
    ensures Trimmed(r)
    ensures exists i :: StripsTo(s, r, i)
  {
    var t := TrimStart(s);
    var r := TrimEnd(t);
    TrimBothEnds(s, t, r);
    r
  }

  /** Trimming the front and then the back leaves an infix between two whitespace runs. */
  lemma TrimBothEnds(s: string, t: string, r: string)
    requires |t| <= |s| && t == s[|s| - |t|..] && AllSpace(s[..|s| - |t|])
    requires |r| <= |t| && r == t[..|r|] && AllSpace(t[|r|..])
    ensures StripsTo(s, r, |s| - |t|)
  {
    var i := |s| - |t|;
    assert s[i..i + |r|] == r by {
      assert t == s[i..];
    }
    assert AllSpace(s[i + |r|..]) by {
      assert s[i + |r|..] == t[|r|..];
    }
  }

  /** `Strip` keeps only characters of its input: an infix of a string without `pat` lacks `pat`. */
  lemma StripNotContains(s: string, pat: string)
    requires !Contains(s, pat)
    ensures !Contains(Strip(s), pat)
  {
    var r := Strip(s);
    var i :| StripsTo(s, r, i);
    InfixNotContains(s, r, i, pat);
  }

  lemma InfixNotContains(s: string, r: string, i: int, pat: string)
    requires 0 <= i && i + |r| <= |s| && r == s[i..i + |r|]
    requires !Contains(s, pat)
    ensures !Contains(r, pat)
  {
    NotContainsSlice(s, pat, i, i + |r|);
  }

  /** A string that is already trimmed is its own strip. */
  lemma StripTrimmed(s: string)
    requires Trimmed(s)
    ensures Strip(s) == s
  {
  }

  /* ---------------------------------------------------------------- words */

  /** Length of the leading run of non-whitespace characters. */
  function WordLength(s: string): (n: nat)
    ensures n <= |s|
    ensures NoSpace(s[..n])
    ensures n < |s| ==> IsSpace(s[n])
  {
    if |s| == 0 || IsSpace(s[0]) then 0
    else
      var n := 1 + WordLength(s[1..]);
      assert forall i | 1 <= i < n :: s[..n][i] == s[1..][..n - 1][i - 1];
      n
  }

  /** `s.split()`: the maximal runs of non-whitespace characters, in order. */
  function Words(s: string): (ws: seq<string>)
    ensures forall k | 0 <= k < |ws| :: |ws[k]| > 0 && NoSpace(ws[k])
    // whitespace alone yields no word
    ensures AllSpace(s) ==> ws == []
    // text that starts with a non-blank starts with its longest whitespace-free prefix
    ensures |s| > 0 && !IsSpace(s[0]) ==> |ws| > 0 && ws[0] == s[..WordLength(s)]
    decreases |s|
  {
    if |s| == 0 then []
    else if IsSpace(s[0]) then Words(s[1..])
    else
      var n := WordLength(s);
      [s[..n]] + Words(s[n..])
  }

  /** Any amount of leading whitespace is skipped. */
  lemma {:induction false} BlankPrefixSkipped(b: string, s: string)
    requires AllSpace(b)
    ensures Words(b + s) == Words(s)
    decreases |b|
  {
    if |b| > 0 {
      assert (b + s)[0] == b[0] && IsSpace(b[0]);
      assert (b + s)[1..] == b[1..] + s;
      BlankPrefixSkipped(b[1..], s);
    } else {
      assert b + s == s;
    }
  }

  lemma {:induction false} WordLengthOfWord(w: string, rest: string)
    requires NoSpace(w)
    requires |rest| == 0 || IsSpace(rest[0])
    ensures WordLength(w + rest) == |w|
    decreases |w|
  {
    if |w| > 0 {
      assert (w + rest)[1..] == w[1..] + rest;
      WordLengthOfWord(w[1..], rest);
    } else {
      assert w + rest == rest;
    }
  }

  /** A word followed by whitespace or the end of the text is the first thing `split()` yields. */
  lemma WordsOfWordThen(w: string, rest: string)
    requires |w| > 0 && NoSpace(w)
    requires |rest| == 0 || IsSpace(rest[0])
    ensures Words(w + rest) == [w] + Words(rest)
  {
    WordLengthOfWord(w, rest);
    assert (w + rest)[..|w|] == w;
    assert (w + rest)[|w|..] == rest;
  }

  /** Splitting two texts joined by a blank gives the words of the first, then those of the second. */
  lemma {:induction false} WordsJoin(u: string, v: string)
    ensures Words(u + " " + v) == Words(u) + Words(v)
    decreases |u|
  {
    var s := u + " " + v;
    if |u| == 0 {
      assert s == " " + v && s[1..] == v;
    } else if IsSpace(u[0]) {
      assert s[1..] == u[1..] + " " + v;
      WordsJoin(u[1..], v);
    } else {
      var n := WordLength(u);
      WordLengthOfWord(u[..n], u[n..] + " " + v);
      assert s == u[..n] + (u[n..] + " " + v);
      assert s[..n] == u[..n] && s[n..] == u[n..] + " " + v;
      WordsJoin(u[n..], v);
    }
  }

  /** Two words separated by one blank are split back into exactly those two words. */
  lemma WordsOfTwo(a: string, b: string)
    requires |a| > 0 && NoSpace(a)
    requires |b| > 0 && NoSpace(b)
    ensures Words(a + " " + b) == [a, b]
  {
    WordsOfWordThen(a, " " + b);
    assert a + " " + b == a + (" " + b);
    assert (" " + b)[1..] == b;
    WordsOfWordThen(b, "");
    assert b + "" == b;
  }
}

=== FILE: transcript.dfy ===
/**
 Entries of the conversation transcript kept in the session (`messages`):
 each is a `{role, type, content}` record.
 */
module Transcript {

  datatype Role = Assistant | User

  /** The `type` field: `"message"` (the default), `"question"` or `"assessment"`. */
  datatype Kind = Plain | Question | Assessment

  /** A question card holds the question and its model answer; every other entry holds text. */
  datatype Content =
    | Text(text: string)
    | Card(question: string, expectedAnswer: string)

  datatype Message = Message(role: Role, kind: Kind, content: Content)

  /** The text a content offers to the score extractor; a card offers none. */
  function TextOf(c: Content): string {
    match c
    case Text(t) => t
    case Card(_, _) => ""
  }
}
